=== FILE: README.md ===
# Quest HUD and page helpers, modelled in Dafny

This project models the logic of a scroll-driven story page. The core is the
quest HUD (`before/quest-hud.min3.js`), which has four parts:

- **Section tracker.** The section tracker decides which `<section>` of the
  scroller is current for a given scroll offset. It announces a
  `sectionchange` only when that section changes.
- **HP counter.** The counter adds two numbers: a live census of the page's
  fillable form controls, and a count of "hidden scrolls" kept in session
  storage. Every change of the hidden count shows a signed delta badge. A
  slot watcher turns a slot filling or emptying into +1 or −1.
- **Dialog engine.** A state machine over the `dlg` record plays a section's
  scripted lines. It reveals each line with a typewriter and speaks it. A
  first press of Enter, → or Space finishes the current line; a later press
  moves to the next line. Autoplay runs at most once per section per session,
  which is recorded in `dlg_ran_<id>` flags.
- **Voice selection.** `pickVoice` chooses among the speech engine's voice
  names by preference, then by a gendered name pattern, then by position.

A secondary model covers the small pure helpers of `script.js`:

- the hourly gradient index;
- theme resolution, persistence and toggling;
- the theme button's icon and label;
- the instructions' table of contents: the grouping of the body into one
  wrapper per H2/H3 heading, chip labels, chip width, the section filter, and
  its re-application on toggle. The grouping is modelled as the code runs it
  (each wrapper ends up holding only its heading, after all other content)
  and as it is evidently meant (each wrapper takes its heading's content in
  place); see "## Findings".

The browser is turned into data:

- Session and local storage are `map<string, string>` (module `Storage`).
- `matchMedia` is a boolean.
- Scroll and section offsets are integers.
- The speech engine is a record. It says whether an engine exists, whether it
  accepts an utterance, and which voice names it offers.
- Timer ticks and the speech engine's end or error callback are events. Each
  event is one transition function of module `Dialog`.
- What a transition asks of the outside world is returned as a list of
  effects: run a line's hook, stop speech, speak a text with a chosen voice,
  hide the overlay.

Modules:

| module | file | contents |
|---|---|---|
| `Wrappers`, `Storage`, `Text` | `text.dfy` | `Option`, storage as a map, ASCII lower-casing, substring search, trim, decimal printing and `parseInt` |
| `SectionTracker` | `section_tracker.dfy` | nearest section, change detection, initial and gate section |
| `HpCounter` | `hp_counter.dfy` | countable controls, hidden scrolls, delta badge, slot check |
| `Voice` | `voice.dfy` | voice choice |
| `Dialog` | `dialog.dfy` | the `dlg` state machine and `playDialogFor` |
| `Page` | `page.dfy` | the HUD wired together: bootstrap, scroll, autoplay, replay, observers |
| `Theme` | `theme.dfy` | theme and icon helpers of `script.js` |
| `Toc` | `toc.dfy` | the instructions' table of contents |

Behaviour of the code that is easy to miss and that the model keeps:

- `playDialogFor` does nothing for an empty id, for an unforced play whose
  flag is set, and for a missing or empty script.
- Only the wizard and dragon glyphs prefer a male-pattern voice, and only the
  fairy glyph a female-pattern one. Every other glyph without a preferred
  voice gets the first voice.
- The male pattern `male` also matches names containing "female". So a wizard
  can get a "... female" voice (`Voice.WizardMayGetFemaleVoice`).
- `hpAddHiddenScroll(n)` and `hpRemoveHiddenScroll(n)` accept any integer `n`
  and step by `max(1, n)`.
- The initial section combines its candidates with `||`. So a second section
  with an empty id falls through to the first section.
- The nearest-section scan starts from a distance of `1e9`. So a section that
  far away or farther is never chosen.
- After the speech ends, a further press advances whether or not skip is
  armed. The `skipArmed` branch and the other branch both call `advanceLine`.

## Model

| member | source | states |
|---|---|---|
| SectionTracker.Nearest | before/quest-hud.min3.js:22-28 | The scan returns a section strictly closer to the scroll offset than every earlier section and no farther than every later one, so ties go to the earlier section. The distance must be under 1e9. The result is none exactly when every section is 1e9 or more away, which includes an empty page. |
| SectionTracker.NearestUnique | before/quest-hud.min3.js:24-28 | At most one section satisfies the choice rule. |
| SectionTracker.NearestIsTheOne | before/quest-hud.min3.js:24-28 | Any section satisfying the choice rule is exactly what the scan returns. |
| SectionTracker.TieGoesToEarlier | before/quest-hud.min3.js:27 | Two sections equally far from the offset: the first is chosen. |
| SectionTracker.Pick | before/quest-hud.min3.js:22-33 | A change is announced exactly when the nearest section's id differs from the current id. The announced id becomes current. Otherwise the tracker is untouched, and an empty section list changes nothing. |
| SectionTracker.PickSettles | before/quest-hud.min3.js:29-32 | Recomputing at the same offset right after a recomputation announces nothing. |
| SectionTracker.ThreeSections | before/quest-hud.min3.js:22-33 | Sections at 0, 500 and 1000 with the offset at 520: the section at 500 becomes current and is announced. |
| SectionTracker.Initial | before/quest-hud.min3.js:15 | The initial id is the second section's id when it is non-empty, otherwise the first section's id, otherwise the empty id. |
| SectionTracker.Boot | before/quest-hud.min3.js:394 | While the gate overlay is shown, the current id is `sec-gate`. Otherwise it is the initial choice. |
| SectionTracker.BootChoice | before/quest-hud.min3.js:15 | The start-up section is the gate or one of the first two sections. It is empty exactly when the gate is not shown and neither of the first two sections has an id. |
| HpCounter.InputType | before/quest-hud.min3.js:67 | An absent or empty `type` reads as "text". Any other value is lower-cased. |
| HpCounter.IsCountable | before/quest-hud.min3.js:62-72 | The branch-by-branch test of `isCountableControl`. `HpCounter.CountableIff` states the rule it implements. |
| HpCounter.CountableIff | before/quest-hud.min3.js:62-72 | A control counts if and only if it is a textarea, a select, or an input whose type is not hidden/button/file/image/reset/submit, and it is neither disabled nor read-only. |
| HpCounter.UpperCaseTypeIgnored | before/quest-hud.min3.js:67-68 | An input of type "SUBMIT" is ignored like "submit". |
| HpCounter.MissingTypeCounts | before/quest-hud.min3.js:67-69 | An input without a type, or with an empty one, counts exactly when it is enabled and writable. |
| HpCounter.Countables | before/quest-hud.min3.js:75 | The kept controls are exactly the countable ones among the page's controls, each kept as many times as it occurs. |
| HpCounter.Census | before/quest-hud.min3.js:75 | `baseInputs` is the number of countable controls, at most the number of controls. |
| HpCounter.CensusAppend | before/quest-hud.min3.js:75 | The census of two groups of controls is the sum of their censuses. |
| HpCounter.CensusFull | before/quest-hud.min3.js:75 | The census equals the number of controls if and only if every control counts. |
| HpCounter.LoadHidden | before/quest-hud.min3.js:74 | The stored hidden count is parsed as base-10. A missing, empty, non-numeric or negative value loads as 0. Otherwise the parsed number loads. |
| HpCounter.Display | before/quest-hud.min3.js:76 | `hpValue` is the census plus the hidden count. `HpCounter.AddHidden`, `HpCounter.RemoveHidden` and `Page.OnSlotMutation` state how it moves. |
| HpCounter.DeltaBadge | before/quest-hud.min3.js:78-85 | There is no badge exactly for a delta of 0. A positive delta gives class `add` and a leading "+". A negative delta gives class `sub` and a leading U+2212. After the sign comes exactly the magnitude in decimal, as `Math.abs(n)` prints it. |
| HpCounter.BadgeReadsBack | before/quest-hud.min3.js:81-82 | The digits after the badge's sign parse back to the delta's magnitude. The sign is "+" exactly for a positive delta. |
| HpCounter.StepOf | before/quest-hud.min3.js:88 | The step is 1 for n < 1 and n itself otherwise, so it is at least 1 and at least n. |
| HpCounter.Commit | before/quest-hud.min3.js:87-90 | The new count is what storage reads back afterwards. The delta and badge are the new count minus the old. No other storage key changes. |
| HpCounter.AddHidden | before/quest-hud.min3.js:86-91 | The hidden count and the displayed HP rise by max(1,n). An `add` badge is always shown. Storage reads back the new count and no other key changes. |
| HpCounter.RemoveHidden | before/quest-hud.min3.js:92-97 | The count falls by max(1,n), or drops to 0 when smaller. The delta is the post-clamp change, with no badge exactly when the count was already 0. Storage reads back the new count and no other key changes. |
| HpCounter.AddThenRemove | before/quest-hud.min3.js:86-97 | Adding n and then removing n restores the counter, the displayed HP and the stored count. |
| HpCounter.AddThreeThenTwo | before/quest-hud.min3.js:86-91 | Adding 3 then 2 raises the display by 5 and shows "+3" then "+2". |
| HpCounter.WatchInit | before/quest-hud.min3.js:141 | Each slot's recorded state is its state when the watcher starts. |
| HpCounter.CheckSlot | before/quest-hud.min3.js:127-134 | The recorded state becomes the observed one, and other slots keep theirs. Empty→filled adds exactly 1 and filled→empty removes exactly 1, clamped at 0. An unchanged state does nothing. The stored count follows the change. |
| HpCounter.FillThenEmpty | before/quest-hud.min3.js:127-134 | A slot that fills and then empties leaves the counter as it was. |
| Text.Lower | before/quest-hud.min3.js:67 | Lower-casing keeps the length and maps every character through the letter case map, leaving no upper-case letter. |
| Text.Contains | before/quest-hud.min3.js:304-305 | The pattern search succeeds if and only if the pattern occurs at some position. |
| Text.ParseInt | before/quest-hud.min3.js:74 | `parseInt(s, 10)` is NaN exactly when no digit follows the leading whitespace and optional sign. |
| Text.ParseIntValue | before/quest-hud.min3.js:74 | After whitespace and an optional sign, `parseInt` reads the run of digits up to the first non-digit, and negates it after a minus sign. |
| Text.NatToString | before/quest-hud.min3.js:89 | `String(n)` is a non-empty run of digits with no leading zero except for 0 itself. |
| Text.NatToStringValue | before/quest-hud.min3.js:89 | The digits `String(n)` writes spell n. |
| Text.ParseNatToString | before/quest-hud.min3.js:89 | What `String(n)` writes, `parseInt` reads back as n. |
| Text.TrimStartSpec | script.js:415 | Trimming the front removes a run of whitespace only, and what is kept is a suffix of the input that does not start with whitespace. |
| Text.TrimEndSpec | script.js:415 | Trimming the back removes a run of whitespace only, and what is kept is a prefix of the input that does not end with whitespace. |
| Text.Trim | script.js:415 | The trimmed string is no longer than the input and neither starts nor ends with whitespace. |
| Text.TrimInfix | script.js:415 | The trimmed string occurs in the input with only whitespace before it and only whitespace after it. |
| Text.TrimEmptyIffBlank | script.js:415-416 | A string trims to empty if and only if it is all whitespace. |
| Voice.FindFirst | before/quest-hud.min3.js:304-305 | `find` returns the first name satisfying the test, or none when no name does. |
| Voice.ByName | before/quest-hud.min3.js:302 | `byName` returns the first voice whose name equals the preference, ignoring case. |
| Voice.ByPreference | before/quest-hud.min3.js:303 | It returns the voice of the first preference, in order, that names a voice. It returns none exactly when no preference does. |
| Voice.PickVoice | before/quest-hud.min3.js:298-309 | The result is none exactly when there is no engine or no voice. Otherwise the winning preference is used. Failing that, the fairy gets the first female-pattern voice and the wizard and dragon the first male-pattern voice, or the first voice when no voice matches the pattern. Any other glyph gets the first voice. |
| Voice.FemaleWordIsMale | before/quest-hud.min3.js:305 | Every name containing "female" matches the male pattern too. |
| Voice.ZiraFemaleIsMaleName | before/quest-hud.min3.js:305 | "zira female" contains "female" and matches the male pattern. |
| Voice.WizardMayGetFemaleVoice | before/quest-hud.min3.js:304-307 | When no preference names a voice and the first voice's name contains "female", the wizard is given that first voice. |
| Voice.WizardGetsZiraFemale | before/quest-hud.min3.js:302-307 | With voices "zira female" and "daniel" and the preference "fred", the wizard is given "zira female". |
| Voice.PreferenceIgnoresCase | before/quest-hud.min3.js:302-303 | The preference "Daniel" selects the voice "DANIEL" even though "Alex" is also on offer. |
| Dialog.StartValid | before/quest-hud.min3.js:260-266 | The record before any play satisfies the dialog invariant. |
| Dialog.Cancel | before/quest-hud.min3.js:310-318 | Cancelling stops speech, so nothing is speaking afterwards, and changes nothing else. |
| Dialog.SpeakText | before/quest-hud.min3.js:332-344 | Without an engine nothing is spoken. Otherwise the old utterance is stopped before the new one starts, with the voice `pickVoice` chooses for the current line. The record is speaking exactly when the engine accepts the utterance. |
| Dialog.SpeechEnded | before/quest-hud.min3.js:339-340 | The end or error of the utterance in flight stops speaking and arms skip. With nothing in flight it changes nothing. The invariant is preserved. |
| Dialog.Tick | before/quest-hud.min3.js:322-329 | A tick advances by 2 while Space is held and by 1 otherwise. The screen shows the prefix up to min(charIndex, length). Typing continues exactly while charIndex < length. A tick after typing stopped does nothing. The invariant is preserved. |
| Dialog.TypeLine | before/quest-hud.min3.js:319-331 | Starting a line resets the reveal to it and runs one tick at once. Speech is stopped first and no hook is run. Something is spoken exactly when an engine exists, and then the utterance is the whole line with the voice `pickVoice` chooses for the current line's preferences and glyph. |
| Dialog.AdvanceLine | before/quest-hud.min3.js:353-362 | The index goes up by one. Past the end the dialog closes: the overlay is hidden and speech stopped. Otherwise the new line starts: its glyph is shown, its hook comes first and once, its reveal begins with skip disarmed, and with an engine its text is spoken with the voice `pickVoice` chooses for it. A valid record that is not typing stays valid. |
| Dialog.ShowLine | before/quest-hud.min3.js:356-361 | A line inside the script becomes current: its glyph (the wizard when it has none) is shown, the reveal of its text begins from the first tick, skip is disarmed, its hook runs first, and with an engine its text is spoken with the voice `pickVoice` chooses for its preferences and glyph. |
| Dialog.WithHook | before/quest-hud.min3.js:360 | A line's hook is put in front of its reveal's effects exactly once. Whether speech is requested is unchanged, and every utterance requested is still requested. |
| Dialog.OnAdvanceInput | before/quest-hud.min3.js:345-352 | While typing, the whole line is shown, typing and speech stop, skip is armed and the index stays. While only speaking, speech stops, skip is armed and the index stays. Otherwise the result is exactly `advanceLine` with skip disarmed, whether or not skip was armed: the next line starts (hook, reveal, speech) or the dialog closes, hiding the overlay and stopping speech. The invariant is preserved. |
| Dialog.KeyDown | before/quest-hud.min3.js:384-388 | Keys are ignored while the dialog is closed. Enter and → advance. Space sets double speed and then advances. Other keys do nothing. |
| Dialog.KeyUp | before/quest-hud.min3.js:389 | Releasing Space clears double speed, open or not. Other keys do nothing. |
| Dialog.RanKeyInjective | before/quest-hud.min3.js:365-369 | Different sections have different flag keys. |
| Dialog.RanKey | before/quest-hud.min3.js:365-369 | The flag key `dlg_ran_<id>`. `Dialog.RanKeyInjective` and `Page.RanKeyNotHiddenKey` state that it tells sections apart and never meets the hidden-count key. |
| Dialog.PlayDialogFor | before/quest-hud.min3.js:363-370 | It is a no-op for an empty id, for an unforced play whose flag is "1", and for a missing or empty script. Otherwise the dialog opens and line 0 of the script starts as `advanceLine` starts it: glyph, hook first, reveal from the first tick, skip disarmed, speaking exactly when an engine accepts, and the line spoken with its chosen voice. The flag is set to "1" with no other storage change. The invariant is preserved. |
| Dialog.SecondPlayIsNoOp | before/quest-hud.min3.js:365-369 | After one unforced play, a second unforced play of the same section changes nothing. |
| Dialog.ForcedPlayKeepsFlag | before/quest-hud.min3.js:365-369 | A forced play opens the dialog despite the flag, and the flag stays set. |
| Dialog.RevealFinishes | before/quest-hud.min3.js:322-329 | From any valid record, as many ticks as characters remain end the typing with the whole line shown, on the same line. |
| Dialog.TwoLineScript | before/quest-hud.min3.js:345-370 | A two-line script plays; after settling, two advances close it with the overlay hidden and speech stopped. A further key press does nothing. |
| Dialog.HookedLineAdvances | before/quest-hud.min3.js:356-361 | A line with a hook runs the hook first and still reveals and speaks. |
| Dialog.PlayTwicePlaysOnce | before/quest-hud.min3.js:363-370 | Playing a section twice without force plays it once. |
| Dialog.EmptyScriptDoesNothing | before/quest-hud.min3.js:366 | A section with an empty script never opens the dialog, forced or not. |
| Page.OnSectionChange | before/quest-hud.min3.js:375-381 | An empty id or a set flag is ignored. Otherwise the current section is played unforced. Tracker, counter and slots are untouched. |
| Page.OnScroll | before/quest-hud.min3.js:29-32 | Without an announced change nothing happens. An announced section whose script has lines and whose flag is unset opens, and its line 0 starts with its hook, reveal and speech. Any dialog started is the newly current section's, on line 0, with its flag set. The dialog invariant is preserved. |
| Page.NoReplayOnReturn | before/quest-hud.min3.js:375-381 | Scrolling to a section whose flag is set never reopens its dialog. |
| Page.Replay | before/quest-hud.min3.js:371 | The replay button opens the current section's script whenever the script has lines, even when the flag is set, and line 0 starts with its hook, reveal and speech. Otherwise it does nothing. |
| Page.Init | before/quest-hud.min3.js:392-407 | At start-up the counter is the census plus the stored count, and the slots are recorded as found. The current section is recomputed from the gate or initial choice. If its script has lines and its flag was unset, its dialog is open on line 0. The dialog is valid, and the current section's flag is set whenever its script has lines. |
| Page.InitStartsLine | before/quest-hud.min3.js:402-406 | When the start-up section's script is due, line 0 starts exactly once at start-up: the effects are those of one play, with its hook, reveal and speech, whether the recomputation or the closing offer played it. |
| Page.InitSkipsPlayed | before/quest-hud.min3.js:402-406 | A reload does not replay: when the start-up section's flag is already set, or its script has no lines, start-up leaves the dialog untouched, requests no effect and writes no flag. |
| Page.InitSettles | before/quest-hud.min3.js:29-32 | Recomputing at the start-up offset right after start-up announces nothing and plays nothing. |
| Page.OnSlotMutation | before/quest-hud.min3.js:135-140 | Filling a recorded-empty slot adds exactly one hidden scroll and leaves the census alone. Emptying a recorded-full slot removes one, clamped at 0. Either change persists the count. An unchanged slot changes nothing. No dialog flag is touched. |
| Page.Recount | before/quest-hud.min3.js:395-399 | A recount replaces only the census. The hidden count, storage and dialog stay. |
| Page.RanKeyNotHiddenKey | before/quest-hud.min3.js:60 | No dialog flag key is the hidden-count key. |
| Page.PlayKeepsHidden | before/quest-hud.min3.js:363-370 | Playing a dialog never changes the stored hidden count. |
| Theme.IdxForHour | script.js:39 | The index is below 12, is the hour itself for hours below 12, and differs from the hour by a multiple of 12. |
| Theme.HourIndexValid | script.js:38-39 | Every hour 0..23 selects an entry of both 12-entry lists, and hour h+12 shows the same background as hour h. |
| Theme.GetTheme | script.js:49-54 | A saved "light" or "dark" wins. Otherwise the system preference decides. The result is always "light" or "dark". |
| Theme.IconFor | script.js:289 | The sun shows exactly in the dark theme. |
| Theme.Opposite | script.js:63 | "dark" becomes "light", and everything else becomes "dark". |
| Theme.LabelFor | script.js:308 | The toggle button's label. `Theme.LabelNamesOpposite` and `Theme.LabelPredictsToggle` state what it says. |
| Theme.LabelNamesOpposite | script.js:308 | The dark theme's label is "Switch to light theme" and the light theme's is "Switch to dark theme". |
| Theme.SetTheme | script.js:55-62 | The theme is persisted, so a valid one is what `getTheme` returns next, and no other key changes. The attribute, icon and label follow the argument. The palette follows the resolved theme. |
| Theme.ToggleTheme | script.js:63 | Toggling always changes the resolved theme to the other one. |
| Theme.BootTheme | script.js:389 | At start-up the resolved theme is persisted and read back unchanged. The palette is dark exactly when the icon is the sun. |
| Theme.ToggleTwice | script.js:55-63 | Toggling twice restores the resolved theme and the same view. |
| Theme.LabelPredictsToggle | script.js:304-309 | The label names exactly the theme a press switches to. |
| Theme.UnknownThemeFallsBack | script.js:49-57 | A theme other than "light" or "dark" is stored but ignored on reading, which falls back to the system preference. |
| Toc.QualifiesIff | script.js:410-416 | A heading gets a wrapper exactly when it is an H2/H3 with an id attribute whose trimmed value is non-empty. |
| Toc.WrapperId | script.js:415-420 | The trimmed heading id with "-section" appended. `Toc.ChipLabels` states that it is each chip's target. |
| Toc.Title | script.js:421 | The trimmed heading text. `Toc.ChipLabels` states that it is each titled chip's label. |
| Toc.Span | script.js:423-430 | Corrected grouping (see "## Findings"): a heading's wrapper takes the heading and every following sibling up to, but not including, the next H2/H3, as the comment at line 423 and the sibling loop intend. |
| Toc.Partition | script.js:423-431 | Corrected grouping (see "## Findings"): each qualifying heading is wrapped in place with its content. `Toc.PartitionPreservesOrder`, `Toc.PartitionWellFormed`, `Toc.PartitionMaximal` and `Toc.PartitionHeads` together state what it produces. |
| Toc.PartitionPreservesOrder | script.js:423-431 | Corrected grouping (see "## Findings"): read through the wrappers, the body's nodes are exactly the original ones in the original order. |
| Toc.FirstItem | script.js:423-431 | Corrected grouping (see "## Findings"): the grouping is its first item followed by the grouping of what that item does not cover, and the first item holds exactly the nodes it covers. |
| Toc.PartitionWellFormed | script.js:423-430 | Corrected grouping (see "## Findings"): each wrapper starts with a qualifying heading and holds no other H2/H3. No qualifying heading is left outside a wrapper. |
| Toc.PartitionMaximal | script.js:423-430 | Corrected grouping (see "## Findings"): each wrapper is followed by the end of the body or by an H2/H3. |
| Toc.PartitionHeads | script.js:423-432 | Corrected grouping (see "## Findings"): the wrappers' headings are exactly the qualifying headings, one wrapper each, in document order. |
| Toc.RemoveFirst | script.js:424 | Taking a node out of the body removes one item: the length drops by one exactly when the item is present, and an absent item leaves the body unchanged. |
| Toc.RemoveFirstCount | script.js:424 | Taking a node out of the body removes exactly one occurrence of it and nothing else. |
| Toc.WrapAsWritten | script.js:414-431 | As written, one pass skips a blank id. For a qualifying heading, the heading leaves the body and a wrapper holding only that heading becomes the body's last child, because `h.nextSibling` is read after the heading was moved. |
| Toc.GroupAsWrittenInvariant | script.js:414-432 | The loop invariant of the heading loop as written: the nodes passed over stay loose in order, and one single-heading wrapper per qualifying heading so far is appended. |
| Toc.AsWrittenRegroups | script.js:409-432 | As written, the body ends up as every non-qualifying node, loose and in order, followed by one wrapper per qualifying heading, in document order, each holding only its heading. |
| Toc.AsWrittenHeads | script.js:414-432 | As written, the wrappers' headings are still exactly the qualifying headings in document order, so the chips are unaffected. |
| Toc.AsWrittenWellFormed | script.js:414-431 | As written, loose nodes are not qualifying headings, and every wrapper starts with a qualifying heading and holds no other H2/H3. |
| Toc.AsWrittenKeepsNodes | script.js:414-432 | As written, no node is lost or duplicated. Read through the wrappers, the body is the non-qualifying nodes and then the qualifying headings, a rearrangement of the original children. |
| Toc.ContentLeftBehind | script.js:424-425 | For a heading followed by a paragraph, the code as written leaves the paragraph loose and appends the heading's wrapper after it. The corrected grouping wraps both in place, and only it keeps the document order. |
| Toc.ChipWidth | script.js:475-480 | The chip width is at least 120. From a 632-pixel strip up, five chips and four gaps fit, and one pixel more per chip would not. Below 632 it is 120. |
| Toc.ChipText | script.js:464 | A chip's label is never empty, and a non-empty title is the label. |
| Toc.ChipTextNumbered | script.js:464 | An untitled section's label is "Section " followed by digits that `parseInt` reads back as the section's number. |
| Toc.Numbered | script.js:459 | Mapping over a list with one-based positions keeps its length and gives each element's image at its own position. |
| Toc.Chips | script.js:459-468 | There is one chip per heading, in order, and the i-th is the chip for the i-th heading numbered i+1. |
| Toc.ChipLabels | script.js:459-468 | Each chip targets its heading's wrapper id. Its label is the heading's title, or "Section " with digits reading back as its position when the title is empty. |
| Toc.ShowSection | script.js:496-498 | A wrapper is visible exactly when its id is the target. A chip is active exactly when its target is the target. |
| Toc.ExactlyOneVisible | script.js:496-498 | With distinct wrapper ids, choosing a chip shows its wrapper only and activates that chip only. |
| Toc.FirstSet | script.js:516 | It returns the first active chip, or none when no chip is active. |
| Toc.OnToggle | script.js:515-518 | With no chips, a toggle changes nothing. |
| Toc.ToggleKeepsFilter | script.js:514-518 | Opening or closing the instructions re-applies the current filter unchanged. |
| Toc.InitialFilter | script.js:511-512 | The first wrapper is shown and its chip is active. With no wrapper there is no first section to show. |
| Toc.SetupToc | script.js:409-512 | With no H2/H3 carrying an id nothing happens. Otherwise the body is grouped by the heading loop as written; when no heading qualified the set-up fails. Otherwise the chips are those of the qualifying headings, numbered from 1, and the filter shows the wrappers whose id is the first qualifying heading's wrapper id. |
| Toc.BlankIdFails | script.js:512 | A body whose only heading has the id " " makes the set-up fail. |
| Toc.SetupTocGuarded | script.js:411-512 | The corrected set-up: wrappers take their content in place, and with a guard for an empty wrapper list the set-up never fails and leaves a body without wrappers alone. Otherwise it builds the qualifying headings' chips and the first filter. |
| Toc.GuardedAgrees | script.js:411-512 | Where the original does nothing or fails, the corrected set-up leaves the body alone. Where the original builds a TOC, the corrected one builds the same chips and initial filter, and only the wrappers' contents differ. |

## Left out

- Speech: the Web Speech API, `loadVoicesOnce` and the one-second voice-loading timeout are not modelled. The voices are an input list of names, and a thrown `speak` is the `accepts` flag.
- Timing: the 22 ms / 11 ms tick cadence, `requestAnimationFrame`, `setTimeout` and the `_emphasizeHPTriplet` class sequence are not modelled. Ticks are events.
- Coalescing: the scroll and mutation coalescing flags are not modelled. A coalesced recomputation is one call of `Page.OnScroll` or `Page.Recount`.
- Geometry: `getBoundingClientRect`, `scrollY`, `scrollBy`, `scrollIntoView` and the arrow scrolling of the chip strip are not modelled. Offsets and widths are integer inputs.
- Observers: the `MutationObserver`, the `ResizeObserver` and the per-batch de-duplication of slots are not modelled. A batch is one `Page.OnSlotMutation` per distinct slot.
- The unload guard (`hasAnyUserInputNow`, `beforeunload`) is not modelled. It is DOM reading with no state of its own.
- DOM construction, markup, injected CSS, SVG strings and the emoji pop/shake effects are not modelled. They are presentation.
- Clock-driven code in `script.js` is not modelled: the `Date` hour, `msUntilNextHour`, the hourly rotation and the accordion animation. The hour is an input of `Theme.IdxForHour`.
- The `DIALOG_SCRIPTS` prose is replaced by two sample scripts (`Dialog.Samples`): one with a hooked line and one empty.
- Line hooks are opaque. They are requested as the first effect of a line, and whatever they do or throw does not reach the dialog record, as the `try … catch` ensures.
- Overlapping typewriter timers are not modelled. A line started while an earlier line's tick is still pending leaves the earlier timer chain running. This happens with a play during typing, by autoplay or replay, or with two advances within one tick interval. Both chains then step the shared `charIndex`. The earlier chain writes its own line's prefix over the new line, and it can end typing once `charIndex` reaches its own line's length, before the new line is fully shown. The model has one reveal per record and one tick per event: the single chain the code sets out to run.
- Text.Lower: only the ASCII letters A–Z are case-folded. JavaScript's `toLowerCase` folds all of Unicode.
- Text.Trim: its own contract states only that the result is no longer than the input and has no whitespace at either end. That the result is the input between whitespace-only ends is stated by `Text.TrimInfix`, `Text.TrimStartSpec` and `Text.TrimEndSpec`.
- Text.Trim: the whitespace set is a fixed list (ASCII whitespace, U+00A0, U+2028, U+2029, U+FEFF). It lacks the other Unicode space separators that `String.prototype.trim` also removes.
- Text.ParseInt: the leading whitespace skipped is `Text.Trim`'s fixed list. JavaScript's `parseInt` skips every white-space and line-terminator character, so a string led by another Unicode space separator (U+2003, say) reads as a number in the source and as NaN in the model.
- Text.ParseInt: the magnitude is exact. JavaScript rounds very long digit runs to the nearest double.
- HpCounter.StepOf: `n` is an integer. `hpAddHiddenScroll` and `hpRemoveHiddenScroll` are exposed on `window`, so a caller can pass a fraction, which `Math.max(1, n)` keeps (2.5 steps by 2.5), or NaN, which makes the count NaN and stores "NaN". Neither is modelled.
- Dialog.Tick: lengths and prefixes count Unicode scalar values, while `full.length` and `slice` count UTF-16 code units. A line with characters outside the Basic Multilingual Plane needs more ticks in the source and can show half a surrogate pair mid-reveal. The sample scripts have no such characters.
- HpCounter.Census: its own contract bounds the count by the number of controls; which controls count is stated by `HpCounter.Countables`, `HpCounter.CensusAppend` and `HpCounter.CensusFull`.
- Dialog.Cancel: it always requests a stop. The source skips the call when there is no engine or nothing is speaking; the request is harmless then.
- HpCounter.Control: a `<select>` has no `readOnly` property, and the source reads it as undefined, which counts as writable. A select's `readOnly` field stands for that reading and is false for real pages.
- Toc.OnToggle: its own contract covers only the empty strip. What it does with chips is stated by `Toc.ToggleKeepsFilter`.

## Findings

| source | as written | input that shows it | evidently intended | confidence | as-written member | corrected member |
|---|---|---|---|---|---|---|
| script.js:424-425 | `wrapper.appendChild(h)` moves the heading before `h.nextSibling` is read, so the walk starts from null: each wrapper holds only its heading and is appended at the end of the body | a body `<h2 id="a">A</h2>` followed by a text node "p" ends up as the loose "p" followed by a wrapper holding only the heading | read `h.nextSibling` before moving the heading, so each wrapper takes the heading and its content up to the next H2/H3, in place | high, not executed | Toc.WrapAsWritten, Toc.AsWrittenRegroups, Toc.ContentLeftBehind | Toc.Partition, Toc.PartitionPreservesOrder, Toc.PartitionMaximal |
| script.js:512 | `showSection(sections[0].id)` runs even when no heading produced a wrapper | a body whose only heading is `<h2 id=" ">`: the query at line 410 finds it, line 416 skips it as blank, and `sections[0]` is undefined | return without a TOC when `sections` is empty, like the `!heads.length` check at line 411 | medium, not executed | Toc.SetupToc, Toc.BlankIdFails | Toc.SetupTocGuarded, Toc.GuardedAgrees |

=== FILE: dialog.dfy ===
/** The dialog engine of the quest HUD: a state record and one transition
    function per event.  Speech and the typewriter's timer are outside the
    model: the engine asks for speech through effects, and the speech engine's
    end/error callback and each timer tick arrive as events. */
module Dialog {
  import opened Wrappers
  import opened Storage
  import opened Voice

  /** The side effects a dialog line may name; both only animate the HUD. */
  datatype Hook = MentionsScrolls | EmphasizeHp

  /** One scripted line: speaker glyph, voice preferences (best first), text,
      and the hook run as the line becomes current. */
  datatype Line = Line(glyph: string, voicePrefs: seq<string>, text: string, hook: Option<Hook>)

  /** Scripts keyed by section id. */
  type Scripts = map<string, seq<Line>>

  /** The speech engine as the dialog sees it: whether one exists at all,
      whether it accepts a new utterance without throwing, and the names of
      the voices it offers. */
  datatype Speech = Speech(engine: bool, accepts: bool, voices: seq<string>)

  /** What a transition asks of the outside world, in order. */
  datatype Effect =
    | RunHook(hook: Hook, lineIndex: nat)        // a line's hook; whatever it throws is discarded
    | StopSpeech                                 // cancel the utterance in flight
    | Speak(text: string, voice: Option<nat>)    // start an utterance with the chosen voice
    | HideOverlay                                // take the dialog off the screen

  /** A line index: -1 before the first line of a script, then counting up. */
  type LineIndex = i: int | i >= -1

  /** The `dlg` runtime record.  `open` is whether the overlay is shown;
      `typed` is the text the running typewriter reveals and `shown` the text
      currently on screen; `glyph` is the speaker glyph on screen. */
  datatype Dlg = Dlg(
    open: bool,
    lines: seq<Line>,
    lineIndex: LineIndex,
    charIndex: nat,
    typed: string,
    shown: string,
    glyph: string,
    typing: bool,
    speaking: bool,
    holdSpeed: bool,
    skipArmed: bool)

  /** A transition's result: the new record and the effects it requested. */
  datatype Out = Out(dlg: Dlg, effects: seq<Effect>)

  /** The record before anything has played. */
  const Start: Dlg := Dlg(false, [], 0, 0, "", "", Wizard, false, false, false, false)

  predicate InRange(d: Dlg) { 0 <= d.lineIndex < |d.lines| }

  /** `dlg.lines[dlg.lineIndex]?.text || ''`. */
  function LineText(d: Dlg): string {
    if InRange(d) then d.lines[d.lineIndex].text else ""
  }

  /** What always holds of the record between events: an open dialog is on a
      line of its script, a closed one has run past its script and neither
      types nor speaks, and the screen shows the revealed prefix of the line
      while typing and the whole line after. */
  ghost predicate Valid(d: Dlg) {
    && (d.open ==> InRange(d))
    && (!d.open ==> d.lineIndex >= |d.lines| && !d.typing && !d.speaking)
    && (d.typing ==> d.typed == LineText(d) && 0 < d.charIndex < |d.typed|
                     && d.shown == d.typed[..d.charIndex])
    && (d.open && !d.typing ==> d.shown == LineText(d))
  }

  lemma StartValid()
    ensures Valid(Start)
  {
  }

  function Min(a: int, b: int): int { if a < b then a else b }

  // ---------------------------------------------------------------------
  // Speech

  /** `cancelTTS`: stop speech; the engine's end callback is detached, so a
      cancelled utterance never arms skip. */
  function Cancel(d: Dlg): (r: Out)
    ensures r.dlg == d.(speaking := false) && r.effects == [StopSpeech]
  {
    Out(d.(speaking := false), [StopSpeech])
  }

  /** `speak(text)`: without an engine nothing is spoken; otherwise any
      utterance in flight is cancelled and a new one starts with the voice
      chosen for the current line, unless the engine throws. */
  function SpeakText(d: Dlg, text: string, sp: Speech): (r: Out)
    ensures r.dlg == d.(speaking := sp.engine && sp.accepts)
    ensures !sp.engine ==> r.effects == []
    ensures sp.engine ==> |r.effects| == 2 && r.effects[0] == StopSpeech && r.effects[1].Speak?
                          && r.effects[1].text == text
    ensures sp.engine && InRange(d) ==>
              r.effects[1].voice == PickVoice(true, sp.voices, d.lines[d.lineIndex].voicePrefs, d.lines[d.lineIndex].glyph)
  {
    if !sp.engine then Out(d.(speaking := false), [])
    else
      var prefs := if InRange(d) then d.lines[d.lineIndex].voicePrefs else [];
      var glyph := if InRange(d) then d.lines[d.lineIndex].glyph else "";
      var voice := PickVoice(sp.engine, sp.voices, prefs, glyph);
      Out(d.(speaking := sp.accepts), [StopSpeech, Speak(text, voice)])
  }

  /** The engine's end or error callback for the utterance in flight.  With
      nothing in flight no callback is attached, so nothing happens. */
  function SpeechEnded(d: Dlg): (r: Out)
    ensures d.speaking ==> r.dlg == d.(speaking := false, skipArmed := true)
    ensures !d.speaking ==> r.dlg == d
    ensures r.effects == []
    ensures Valid(d) ==> Valid(r.dlg)
  {
    if d.speaking then Out(d.(speaking := false, skipArmed := true), []) else Out(d, [])
  }

  // ---------------------------------------------------------------------
  // Typewriter

  /** One typewriter tick: two more characters while Space is held, one
      otherwise; typing stops once the whole text is shown.  A tick after
      typing stopped does nothing (the timer chain has ended). */
  function Tick(d: Dlg): (r: Out)
    ensures !d.typing ==> r.dlg == d
    ensures d.typing ==> r.dlg.charIndex == d.charIndex + (if d.holdSpeed then 2 else 1)
    ensures d.typing ==> r.dlg.shown == d.typed[..Min(r.dlg.charIndex, |d.typed|)]
    ensures d.typing ==> (r.dlg.typing <==> r.dlg.charIndex < |d.typed|)
    ensures d.typing ==> r.dlg == d.(charIndex := r.dlg.charIndex, shown := r.dlg.shown, typing := r.dlg.typing)
    ensures r.effects == []
    ensures Valid(d) ==> Valid(r.dlg)
  {
    if !d.typing then Out(d, [])
    else
      var ci := d.charIndex + (if d.holdSpeed then 2 else 1);
      Out(d.(charIndex := ci, shown := d.typed[..Min(ci, |d.typed|)], typing := ci < |d.typed|), [])
  }

  /** `typeLine(full)`: reset the typewriter to `full`, cancel speech, speak
      `full`, and run the first tick at once. */
  function TypeLine(d: Dlg, full: string, sp: Speech): (r: Out)
    ensures r.dlg.typed == full
    ensures r.dlg.charIndex == (if d.holdSpeed then 2 else 1)
    ensures r.dlg.shown == full[..Min(r.dlg.charIndex, |full|)]
    ensures r.dlg.typing <==> r.dlg.charIndex < |full|
    ensures r.dlg.speaking == (sp.engine && sp.accepts)
    ensures r.dlg == d.(typed := full, charIndex := r.dlg.charIndex, shown := r.dlg.shown,
                        typing := r.dlg.typing, speaking := r.dlg.speaking)
    ensures |r.effects| > 0 && r.effects[0] == StopSpeech
    ensures forall i :: 0 <= i < |r.effects| ==> !r.effects[i].RunHook? && !r.effects[i].HideOverlay?
    ensures sp.engine <==> exists i :: 0 <= i < |r.effects| && r.effects[i].Speak?
    ensures sp.engine && InRange(d) ==>
              Speaks(r.effects, full, PickVoice(true, sp.voices, d.lines[d.lineIndex].voicePrefs, d.lines[d.lineIndex].glyph))
    ensures sp.engine && !InRange(d) ==> Speaks(r.effects, full, PickVoice(true, sp.voices, [], ""))
  {
    var d1 := d.(typing := true, charIndex := 0, shown := "", typed := full);
    var c := Cancel(d1);
    var s := SpeakText(c.dlg, full, sp);
    var t := Tick(s.dlg);
    var fx := c.effects + s.effects;
    assert sp.engine ==> fx[2] == s.effects[1];
    Out(t.dlg, fx)
  }

  // ---------------------------------------------------------------------
  // Lines

  /** `advanceLine`: move to the next line; past the last one the dialog
      closes, otherwise the new line's hook runs and then its reveal and
      speech start. */
  function AdvanceLine(d: Dlg, sp: Speech): (r: Out)
    ensures r.dlg.lineIndex == d.lineIndex + 1
    ensures r.dlg.lines == d.lines && r.dlg.holdSpeed == d.holdSpeed
    ensures !InRange(r.dlg) ==>
              r.dlg == d.(lineIndex := d.lineIndex + 1, open := false, speaking := false)
              && r.effects == [HideOverlay, StopSpeech]
    ensures InRange(r.dlg) ==>
              r.dlg.open == d.open && LineStarted(r.dlg, r.effects, d.lines, r.dlg.lineIndex, d.holdSpeed, sp)
    ensures Valid(d) && !d.typing ==> Valid(r.dlg)
  {
    var idx := d.lineIndex + 1;
    if idx >= |d.lines| then
      Out(d.(lineIndex := idx, open := false, speaking := false), [HideOverlay, StopSpeech])
    else
      ShowLine(d, idx, sp)
  }

  /** The part of `advanceLine` for an index inside the script: show the
      line's glyph, clear the text, disarm skip, run the hook, then type and
      speak the line. */
  function ShowLine(d: Dlg, idx: nat, sp: Speech): (r: Out)
    requires idx < |d.lines|
    ensures r.dlg.open == d.open
    ensures LineStarted(r.dlg, r.effects, d.lines, idx, d.holdSpeed, sp)
  {
    var line := d.lines[idx];
    var d1 := d.(lineIndex := idx, glyph := if line.glyph == "" then Wizard else line.glyph,
                 shown := "", skipArmed := false);
    var t := TypeLine(d1, line.text, sp);
    Out(t.dlg, WithHook(line.hook, idx, t.effects))
  }

  /** A line's hook, if any, in front of the effects of its reveal. */
  function WithHook(hook: Option<Hook>, idx: nat, fx: seq<Effect>): (r: seq<Effect>)
    requires |fx| > 0 && forall i :: 0 <= i < |fx| ==> !fx[i].RunHook?
    ensures HookFirst(r, hook, idx)
    ensures (exists i :: 0 <= i < |r| && r[i].Speak?) <==> (exists i :: 0 <= i < |fx| && fx[i].Speak?)
    ensures forall text, voice :: Speaks(fx, text, voice) ==> Speaks(r, text, voice)
  {
    if hook.Some? then
      var r := [RunHook(hook.value, idx)] + fx;
      assert forall i :: 0 <= i < |fx| ==> r[i + 1] == fx[i];
      r
    else fx
  }

  /** Among the effects is a request to speak `text` with `voice`. */
  ghost predicate Speaks(fx: seq<Effect>, text: string, voice: Option<nat>) {
    exists i :: 0 <= i < |fx| && fx[i] == Speak(text, voice)
  }

  /** The record and effects of line `idx` of `lines` just become current
      (`advanceLine` inside the script): the line's glyph is shown, its text
      is being revealed from the first tick, skip is disarmed, its hook runs
      first, and with a speech engine the line's text is spoken with the
      voice chosen for its glyph and preferences. */
  ghost predicate LineStarted(dl: Dlg, fx: seq<Effect>, lines: seq<Line>, idx: nat, holdSpeed: bool, sp: Speech)
    requires idx < |lines|
  {
    var line := lines[idx];
    && dl.lines == lines && dl.lineIndex == idx && dl.holdSpeed == holdSpeed
    && dl.glyph == (if line.glyph == "" then Wizard else line.glyph)
    && dl.typed == line.text
    && dl.charIndex == (if holdSpeed then 2 else 1)
    && dl.shown == line.text[..Min(dl.charIndex, |line.text|)]
    && (dl.typing <==> dl.charIndex < |line.text|)
    && dl.speaking == (sp.engine && sp.accepts)
    && !dl.skipArmed
    && HookFirst(fx, line.hook, idx)
    && (sp.engine <==> exists i :: 0 <= i < |fx| && fx[i].Speak?)
    && (sp.engine ==> Speaks(fx, line.text, PickVoice(true, sp.voices, line.voicePrefs, line.glyph)))
  }

  /** The effects of a line that became current: its hook, if it has one,
      comes first and exactly once, and nothing after it is a hook. */
  ghost predicate HookFirst(fx: seq<Effect>, hook: Option<Hook>, idx: nat) {
    && |fx| > 0
    && (hook.Some? ==> fx[0] == RunHook(hook.value, idx)
                       && forall i :: 1 <= i < |fx| ==> !fx[i].RunHook?)
    && (hook.None? ==> forall i :: 0 <= i < |fx| ==> !fx[i].RunHook?)
  }

  // ---------------------------------------------------------------------
  // Input

  /** `onAdvanceInput`: a first press finishes the line's effects, a further
      press moves on.  While typing the whole line is shown and speech stops;
      while only speaking, speech stops; either way skip is armed and the
      line stays.  Otherwise the next line comes, whether or not skip was
      armed. */
  function OnAdvanceInput(d: Dlg, sp: Speech): (r: Out)
    ensures d.typing ==>
              r.dlg == d.(typing := false, shown := LineText(d), speaking := false, skipArmed := true)
              && r.effects == [StopSpeech]
    ensures !d.typing && d.speaking ==>
              r.dlg == d.(speaking := false, skipArmed := true) && r.effects == [StopSpeech]
    ensures !d.typing && !d.speaking ==>
              r.dlg.lineIndex == d.lineIndex + 1 && !r.dlg.skipArmed
              && (r.dlg.open <==> d.open && d.lineIndex + 1 < |d.lines|)
    ensures !d.typing && !d.speaking ==> r == AdvanceLine(d.(skipArmed := false), sp)
    ensures Valid(d) ==> Valid(r.dlg)
  {
    if d.typing then
      var c := Cancel(d.(typing := false, shown := LineText(d)));
      Out(c.dlg.(skipArmed := true), c.effects)
    else if d.speaking then
      var c := Cancel(d);
      Out(c.dlg.(skipArmed := true), c.effects)
    else if d.skipArmed then
      AdvanceLine(d.(skipArmed := false), sp)
    else
      AdvanceLine(d, sp)
  }

  /** Keys the dialog listens to. */
  datatype Key = Enter | ArrowRight | Space | OtherKey

  /** A key press: ignored unless the dialog is open; Enter and ArrowRight
      advance; Space turns on double speed and advances. */
  function KeyDown(d: Dlg, key: Key, sp: Speech): (r: Out)
    ensures !d.open ==> r == Out(d, [])
    ensures d.open && (key == Enter || key == ArrowRight) ==> r == OnAdvanceInput(d, sp)
    ensures d.open && key == Space ==> r == OnAdvanceInput(d.(holdSpeed := true), sp)
    ensures key == OtherKey ==> r == Out(d, [])
    ensures Valid(d) ==> Valid(r.dlg)
  {
    if !d.open then Out(d, [])
    else match key
      case Enter => OnAdvanceInput(d, sp)
      case ArrowRight => OnAdvanceInput(d, sp)
      case Space =>
        assert Valid(d) ==> Valid(d.(holdSpeed := true));
        OnAdvanceInput(d.(holdSpeed := true), sp)
      case OtherKey => Out(d, [])
  }

  /** A key release: releasing Space restores normal speed, whether or not
      the dialog is open. */
  function KeyUp(d: Dlg, key: Key): (r: Out)
    ensures key == Space ==> r.dlg == d.(holdSpeed := false)
    ensures key != Space ==> r.dlg == d
    ensures r.effects == []
    ensures Valid(d) ==> Valid(r.dlg)
  {
    if key == Space then Out(d.(holdSpeed := false), []) else Out(d, [])
  }

  // ---------------------------------------------------------------------
  // Playing a section's script

  /** Session-storage key of the "already played" flag of a section. */
  function RanKey(id: string): string { "dlg_ran_" + id }

  lemma RanKeyInjective(a: string, b: string)
    requires RanKey(a) == RanKey(b)
    ensures a == b
  {
    assert a == RanKey(a)[8..];
    assert b == RanKey(b)[8..];
  }

  /** The section's script plays unless the id is empty, the flag is set and
      the play is not forced, or the section has no lines. */
  predicate WillPlay(session: Store, scripts: Scripts, id: string, force: bool) {
    && id != ""
    && (force || GetItem(session, RanKey(id)) != Some("1"))
    && id in scripts && |scripts[id]| > 0
  }

  /** What a play leaves behind: the dialog record, the session storage and
      the requested effects. */
  datatype Played = Played(dlg: Dlg, session: Store, effects: seq<Effect>)

  /** `playDialogFor(id, force)`. */
  function PlayDialogFor(d: Dlg, session: Store, scripts: Scripts, id: string, force: bool, sp: Speech): (r: Played)
    ensures !WillPlay(session, scripts, id, force) ==> r == Played(d, session, [])
    ensures WillPlay(session, scripts, id, force) ==>
              && r.dlg.open && r.dlg.lines == scripts[id] && r.dlg.lineIndex == 0
              && GetItem(r.session, RanKey(id)) == Some("1")
              && (forall k :: k != RanKey(id) ==> GetItem(r.session, k) == GetItem(session, k))
              && LineStarted(r.dlg, r.effects, scripts[id], 0, d.holdSpeed, sp)
    ensures Valid(d) ==> Valid(r.dlg)
  {
    if !WillPlay(session, scripts, id, force) then Played(d, session, [])
    else
      var d0 := d.(lines := scripts[id], lineIndex := -1, open := true);
      var a := AdvanceLine(d0, sp);
      Played(a.dlg, SetItem(session, RanKey(id), "1"), a.effects)
  }

  /** Once a section's script has been offered without force, offering it
      again without force changes nothing: autoplay runs at most once per
      section per session. */
  lemma SecondPlayIsNoOp(d: Dlg, session: Store, scripts: Scripts, id: string, sp: Speech, d2: Dlg)
    ensures var p := PlayDialogFor(d, session, scripts, id, false, sp);
            PlayDialogFor(d2, p.session, scripts, id, false, sp) == Played(d2, p.session, [])
  {
  }

  /** A forced play ignores the flag but does not clear it. */
  lemma ForcedPlayKeepsFlag(d: Dlg, session: Store, scripts: Scripts, id: string, sp: Speech)
    requires GetItem(session, RanKey(id)) == Some("1")
    ensures GetItem(PlayDialogFor(d, session, scripts, id, true, sp).session, RanKey(id)) == Some("1")
    ensures id != "" && id in scripts && |scripts[id]| > 0 ==>
              PlayDialogFor(d, session, scripts, id, true, sp).dlg.open
  {
  }

  // ---------------------------------------------------------------------
  // Runs of events

  /** `n` typewriter ticks in a row. */
  function Ticks(d: Dlg, n: nat): Dlg
    decreases n
  {
    if n == 0 then d else Ticks(Tick(d).dlg, n - 1)
  }

  /** The reveal always finishes: from any valid record, as many ticks as the
      line has characters end the typing, with the whole line on screen. */
  lemma {:induction false} RevealFinishes(d: Dlg, n: nat)
    requires Valid(d)
    requires d.typing ==> n >= |d.typed| - d.charIndex
    ensures !Ticks(d, n).typing && Valid(Ticks(d, n))
    ensures Ticks(d, n).lineIndex == d.lineIndex && Ticks(d, n).open == d.open
    decreases n
  {
    if n > 0 {
      RevealFinishes(Tick(d).dlg, n - 1);
    }
  }

  // ---------------------------------------------------------------------
  // Sample scripts

  /** Two small scripts: one whose second line carries a hook, one empty. */
  const Samples: Scripts := map[
    "sec-intro" := [
      Line(Dragon, ["Daniel"], "Hi", None),
      Line(Wizard, ["Daniel"], "Go", Some(MentionsScrolls))],
    "sec-empty" := []]

  const Voiced: Speech := Speech(true, true, ["Daniel"])

  /** Let the current line settle: finish the reveal, then let speech end. */
  function Settle(d: Dlg): Dlg {
    SpeechEnded(Tick(d).dlg).dlg
  }

  /** The first sample line, played and settled: fully shown, silent, and
      waiting for a key. */
  lemma IntroSettles()
    ensures var d1 := Settle(PlayDialogFor(Start, map[], Samples, "sec-intro", false, Voiced).dlg);
            && d1.open && d1.lines == Samples["sec-intro"] && d1.lineIndex == 0
            && d1.shown == "Hi" && !d1.typing && !d1.speaking && d1.skipArmed && !d1.holdSpeed
  {
    var p := PlayDialogFor(Start, map[], Samples, "sec-intro", false, Voiced);
    assert WillPlay(map[], Samples, "sec-intro", false);
    assert Samples["sec-intro"][0].text == "Hi";
    var d1 := Settle(p.dlg);
    assert d1.shown == "Hi"[..2] == "Hi";
  }

  /** A two-line script: play, settle, advance, settle, advance closes the
      dialog, and a further key press is ignored. */
  lemma TwoLineScript()
    ensures var p := PlayDialogFor(Start, map[], Samples, "sec-intro", false, Voiced);
            var d1 := Settle(p.dlg);
            var d2 := KeyDown(d1, Enter, Voiced).dlg;
            var d3 := Settle(d2);
            var d4 := KeyDown(d3, Enter, Voiced);
            && p.dlg.open && p.dlg.lineIndex == 0 && p.dlg.typing && p.dlg.speaking
            && d1.shown == "Hi" && !d1.typing && !d1.speaking && d1.skipArmed
            && d2.open && d2.lineIndex == 1
            && !d4.dlg.open && d4.effects == [HideOverlay, StopSpeech]
            && KeyDown(d4.dlg, Enter, Voiced) == Out(d4.dlg, [])
  {
    var p := PlayDialogFor(Start, map[], Samples, "sec-intro", false, Voiced);
    assert WillPlay(map[], Samples, "sec-intro", false);
    assert Samples["sec-intro"][0].text == "Hi";
    var d1 := Settle(p.dlg);
    assert d1.shown == "Hi"[..2] == "Hi";
    var d2 := KeyDown(d1, Enter, Voiced).dlg;
    var d3 := Settle(d2);
    assert !d3.typing && !d3.speaking;
  }

  /** A line whose hook is announced still reveals, speaks and gives way to
      the next input exactly like a line without one: the record never
      depends on what the hook does. */
  lemma HookedLineAdvances()
    ensures var p := PlayDialogFor(Start, map[], Samples, "sec-intro", false, Voiced);
            var d2 := KeyDown(Settle(p.dlg), Enter, Voiced);
            d2.effects[0] == RunHook(MentionsScrolls, 1)
            && d2.dlg.typing && d2.dlg.speaking && d2.dlg.shown == "G"
            && d2.effects[|d2.effects| - 1] == Speak("Go", Some(0))
  {
    IntroSettles();
    DanielPicked();
    var d1 := Settle(PlayDialogFor(Start, map[], Samples, "sec-intro", false, Voiced).dlg);
    assert KeyDown(d1, Enter, Voiced) == ShowLine(d1, 1, Voiced);
  }

  /** The sample lines prefer "Daniel", which the sample engine offers. */
  lemma DanielPicked()
    ensures PickVoice(true, ["Daniel"], ["Daniel"], Wizard) == Some(0)
  {
    assert ByName(["Daniel"], "Daniel") == Some(0);
  }

  /** Playing the same section twice without force plays it once. */
  lemma PlayTwicePlaysOnce()
    ensures var p1 := PlayDialogFor(Start, map[], Samples, "sec-intro", false, Voiced);
            var p2 := PlayDialogFor(p1.dlg, p1.session, Samples, "sec-intro", false, Voiced);
            p1.dlg.open && |p1.effects| > 0 && p2 == Played(p1.dlg, p1.session, [])
  {
    assert WillPlay(map[], Samples, "sec-intro", false);
  }

  /** A section without lines never opens the dialog. */
  lemma EmptyScriptDoesNothing(d: Dlg, session: Store, force: bool)
    ensures PlayDialogFor(d, session, Samples, "sec-empty", force, Voiced) == Played(d, session, [])
  {
  }
}

=== FILE: hp_counter.dfy ===
/** The HP counter of the quest HUD: a live census of the page's fillable
    form controls plus a count of "hidden scrolls" persisted in session
    storage, the signed delta badge each change of that count shows, and the
    slot watcher that turns slots filling and emptying into such changes. */
module HpCounter {
  import opened Wrappers
  import opened Storage
  import opened Text

  // ---------------------------------------------------------------------
  // Countable controls

  /** The element kinds the census distinguishes; `Other` also covers a
      target that is not an HTML element at all. */
  datatype Tag = TextArea | Select | Input | Other

  /** The parts of a form control the census reads: its kind, its `type`
      attribute (None when absent), and its `disabled` and `readOnly`
      properties.  A `<select>` has no `readOnly` property, so for one the
      field holds what the source reads there, which is always false. */
  datatype Control = Control(tag: Tag, typeAttr: Option<string>, disabled: bool, readOnly: bool)

  /** Input types that are never counted. */
  const IgnoredTypes: set<string> := {"hidden", "button", "file", "image", "reset", "submit"}

  /** The lower-cased `type` of an input; an absent or empty attribute reads
      as "text". */
  function InputType(c: Control): (ty: string)
    ensures c.typeAttr.None? || c.typeAttr == Some("") ==> ty == "text"
    ensures c.typeAttr.Some? && c.typeAttr.value != "" ==> ty == Lower(c.typeAttr.value)
  {
    if c.typeAttr.None? || c.typeAttr.value == "" then "text" else Lower(c.typeAttr.value)
  }

  /** `isCountableControl`, branch by branch as the source tests it. */
  predicate IsCountable(c: Control) {
    match c.tag
    case TextArea => !c.disabled && !c.readOnly
    case Select => !c.disabled && !c.readOnly
    case Input => if InputType(c) in IgnoredTypes then false else !c.disabled && !c.readOnly
    case Other => false
  }

  /** The rule the branches implement: a control counts exactly when it is a
      fillable kind and is neither disabled nor read-only. */
  lemma CountableIff(c: Control)
    ensures IsCountable(c) <==>
              (c.tag == TextArea || c.tag == Select || (c.tag == Input && InputType(c) !in IgnoredTypes))
              && !c.disabled && !c.readOnly
  {
  }

  /** The `type` attribute is compared case-insensitively: an upper-case
      "SUBMIT" is ignored like "submit". */
  lemma UpperCaseTypeIgnored()
    ensures !IsCountable(Control(Input, Some("SUBMIT"), false, false))
  {
    var l := Lower("SUBMIT");
    assert l[0] == 's' && l[1] == 'u' && l[2] == 'b' && l[3] == 'm' && l[4] == 'i' && l[5] == 't';
    assert l == "submit";
  }

  /** An input without a `type` attribute, or with an empty one, counts as a
      text field. */
  lemma MissingTypeCounts(disabled: bool, readOnly: bool)
    ensures IsCountable(Control(Input, None, disabled, readOnly)) <==> !disabled && !readOnly
    ensures IsCountable(Control(Input, Some(""), disabled, readOnly)) <==> !disabled && !readOnly
  {
    assert "text" !in IgnoredTypes;
  }

  /** The controls `computeBaseInputs` keeps, in document order. */
  function Countables(cs: seq<Control>): (r: seq<Control>)
    ensures |r| <= |cs|
    ensures forall c :: c in r ==> c in cs && IsCountable(c)
    ensures forall c :: c in cs && IsCountable(c) ==> c in r
    ensures forall c :: multiset(r)[c] == if IsCountable(c) then multiset(cs)[c] else 0
  {
    if |cs| == 0 then []
    else
      var rest := Countables(cs[1..]);
      assert cs == [cs[0]] + cs[1..];
      if IsCountable(cs[0]) then [cs[0]] + rest else rest
  }

  /** `baseInputs`: how many controls count. */
  function Census(cs: seq<Control>): (n: nat)
    ensures n <= |cs|
  {
    |Countables(cs)|
  }

  /** The census of a page built from two parts is the sum of their censuses. */
  lemma {:induction false} CensusAppend(cs: seq<Control>, ds: seq<Control>)
    ensures Census(cs + ds) == Census(cs) + Census(ds)
  {
    if |cs| > 0 {
      assert (cs + ds)[1..] == cs[1..] + ds;
      CensusAppend(cs[1..], ds);
    } else {
      assert cs + ds == ds;
    }
  }

  /** Every control counts exactly when the census equals the number of
      controls. */
  lemma {:induction false} CensusFull(cs: seq<Control>)
    ensures Census(cs) == |cs| <==> forall i :: 0 <= i < |cs| ==> IsCountable(cs[i])
  {
    if |cs| > 0 {
      CensusFull(cs[1..]);
      assert forall i :: 1 <= i < |cs| ==> cs[i] == cs[1..][i - 1];
    }
  }

  // ---------------------------------------------------------------------
  // Hidden scrolls

  /** Session-storage key of the hidden-scroll count. */
  const HiddenKey: string := "hp_hidden_scrolls"

  /** The counter: the census and the hidden-scroll count. */
  datatype Hp = Hp(base: nat, hidden: nat)

  /** `hpValue`: the number the HUD shows. */
  function Display(hp: Hp): nat { hp.base + hp.hidden }

  /** The hidden-scroll count read at load time: the stored text parsed as a
      base-10 integer, with a missing, empty, non-numeric or negative value
      reading as 0. */
  function LoadHidden(st: Store): (h: nat)
    ensures HiddenKey !in st ==> h == 0
    ensures HiddenKey in st && ParseInt(st[HiddenKey]).Some? && ParseInt(st[HiddenKey]).value >= 0
            ==> h == ParseInt(st[HiddenKey]).value
    ensures HiddenKey in st && (ParseInt(st[HiddenKey]).None? || ParseInt(st[HiddenKey]).value < 0)
            ==> h == 0
  {
    var text := GetItem(st, HiddenKey).GetOr("");
    var raw := if text == "" then "0" else text;
    match ParseInt(raw)
    case None => 0
    case Some(v) => if v < 0 then 0 else v
  }

  /** The outcome of a change to the hidden count: the new counter, the
      storage after the count was written back, the change actually applied,
      and the delta badge shown for it. */
  datatype Change = Change(hp: Hp, store: Store, delta: int, badge: Option<Badge>)

  /** A delta badge: its class (`add` or `sub`) and its text. */
  datatype Badge = Badge(kind: string, text: string)

  /** The sign glyph of a negative delta (U+2212 MINUS SIGN, not a hyphen). */
  const Minus: char := '\U{2212}'

  /** `showDelta`: no badge for 0, otherwise the sign followed by the
      magnitude in decimal. */
  function DeltaBadge(d: int): (b: Option<Badge>)
    ensures b.None? <==> d == 0
    ensures b.Some? ==> |b.value.text| >= 2 && b.value.text[1..] == NatToString(Abs(d))
    ensures b.Some? && d > 0 ==> b.value.kind == "add" && b.value.text[0] == '+'
    ensures b.Some? && d < 0 ==> b.value.kind == "sub" && b.value.text[0] == Minus
  {
    if d == 0 then None
    else if d > 0 then Some(Badge("add", "+" + NatToString(d)))
    else Some(Badge("sub", [Minus] + NatToString(-d)))
  }

  /** A badge can be read back: its sign is the sign of the delta and the
      digits after it spell the delta's magnitude. */
  lemma BadgeReadsBack(d: int)
    requires d != 0
    ensures var t := DeltaBadge(d).value.text;
            ParseInt(t[1..]) == Some(Abs(d))
            && (t[0] == '+' <==> d > 0)
  {
    var t := DeltaBadge(d).value.text;
    assert t[1..] == NatToString(Abs(d));
    ParseNatToString(Abs(d));
  }

  /** The step both `hpAddHiddenScroll(n)` and `hpRemoveHiddenScroll(n)`
      take: at least one, whatever `n` is. */
  function StepOf(n: int): (k: nat)
    ensures k >= 1 && k >= n
    ensures n >= 1 ==> k == n
    ensures n < 1 ==> k == 1
  {
    if n < 1 then 1 else n
  }

  /** Persist the new count `h` and show the badge for the change from the
      current count. */
  function Commit(hp: Hp, st: Store, h: nat): (c: Change)
    ensures c.hp == Hp(hp.base, h)
    ensures c.delta == h - hp.hidden
    ensures c.badge == DeltaBadge(h - hp.hidden)
    ensures LoadHidden(c.store) == h
    ensures forall k :: k != HiddenKey ==> GetItem(c.store, k) == GetItem(st, k)
  {
    var st' := SetItem(st, HiddenKey, NatToString(h));
    ParseNatToString(h);
    Change(Hp(hp.base, h), st', h - hp.hidden, DeltaBadge(h - hp.hidden))
  }

  /** `hpAddHiddenScroll(n)`. */
  function AddHidden(hp: Hp, st: Store, n: int): (c: Change)
    ensures c.hp.hidden == hp.hidden + StepOf(n)
    ensures c.hp.base == hp.base
    ensures Display(c.hp) == Display(hp) + StepOf(n)
    ensures c.delta == StepOf(n) && c.badge.Some? && c.badge.value.kind == "add"
    ensures LoadHidden(c.store) == c.hp.hidden
    ensures forall k :: k != HiddenKey ==> GetItem(c.store, k) == GetItem(st, k)
  {
    Commit(hp, st, hp.hidden + StepOf(n))
  }

  /** `hpRemoveHiddenScroll(n)`: lowers the count, stopping at 0; the badge
      shows only what was actually taken away. */
  function RemoveHidden(hp: Hp, st: Store, n: int): (c: Change)
    ensures hp.hidden >= StepOf(n) ==> c.hp.hidden == hp.hidden - StepOf(n)
    ensures hp.hidden < StepOf(n) ==> c.hp.hidden == 0
    ensures c.hp.base == hp.base
    ensures c.delta == c.hp.hidden - hp.hidden <= 0
    ensures c.badge.None? <==> hp.hidden == 0
    ensures LoadHidden(c.store) == c.hp.hidden
    ensures forall k :: k != HiddenKey ==> GetItem(c.store, k) == GetItem(st, k)
  {
    Commit(hp, st, if hp.hidden >= StepOf(n) then hp.hidden - StepOf(n) else 0)
  }

  /** Adding and then removing the same amount restores both the count and
      the displayed value, and the count read from storage. */
  lemma AddThenRemove(hp: Hp, st: Store, n: int)
    ensures var c2 := RemoveHidden(AddHidden(hp, st, n).hp, AddHidden(hp, st, n).store, n);
            c2.hp == hp && Display(c2.hp) == Display(hp) && LoadHidden(c2.store) == hp.hidden
  {
  }

  /** Adding 3 and then 2 raises the display by 5 and shows "+3" then "+2". */
  lemma AddThreeThenTwo(hp: Hp, st: Store)
    ensures var c1 := AddHidden(hp, st, 3);
            var c2 := AddHidden(c1.hp, c1.store, 2);
            Display(c2.hp) == Display(hp) + 5
            && c1.badge == Some(Badge("add", "+3"))
            && c2.badge == Some(Badge("add", "+2"))
  {
    assert NatToString(3) == "3";
    assert NatToString(2) == "2";
    assert "+" + "3" == "+3";
    assert "+" + "2" == "+2";
  }

  // ---------------------------------------------------------------------
  // Slot watcher

  /** The filled/empty state recorded per slot (slots are numbered in
      document order); `state.get(el) || false` reads a missing entry as
      empty. */
  type SlotState = map<nat, bool>

  function Recorded(w: SlotState, slot: nat): bool {
    if slot in w then w[slot] else false
  }

  /** `watchSlots` records each slot's state as found, changing nothing else. */
  function WatchInit(filled: seq<bool>): (w: SlotState)
    ensures forall i :: 0 <= i < |filled| ==> Recorded(w, i) == filled[i]
  {
    map i | 0 <= i < |filled| :: filled[i]
  }

  /** The outcome of a slot check: the recorded states and the counter change
      (None when nothing was applied). */
  datatype SlotCheck = SlotCheck(slots: SlotState, change: Option<Change>)

  /** `check(el)`: compare the slot's observed state with the recorded one;
      an empty slot that became filled adds one hidden scroll, a filled slot
      that became empty removes one. */
  function CheckSlot(w: SlotState, slot: nat, filled: bool, hp: Hp, st: Store): (r: SlotCheck)
    ensures Recorded(r.slots, slot) == filled
    ensures forall s :: s != slot ==> Recorded(r.slots, s) == Recorded(w, s)
    ensures filled == Recorded(w, slot) ==> r == SlotCheck(w, None)
    ensures filled && !Recorded(w, slot) ==>
              r.change.Some? && r.change.value.hp.hidden == hp.hidden + 1
    ensures !filled && Recorded(w, slot) ==>
              r.change.Some? && r.change.value.hp.hidden == if hp.hidden > 0 then hp.hidden - 1 else 0
    ensures r.change.Some? ==> LoadHidden(r.change.value.store) == r.change.value.hp.hidden
    ensures r.change.Some? ==> r.change.value.hp.base == hp.base
    ensures r.change.Some? ==> forall k :: k != HiddenKey ==> GetItem(r.change.value.store, k) == GetItem(st, k)
  {
    var prev := Recorded(w, slot);
    if filled != prev then
      var w' := w[slot := filled];
      if filled && !prev then SlotCheck(w', Some(AddHidden(hp, st, 1)))
      else SlotCheck(w', Some(RemoveHidden(hp, st, 1)))
    else SlotCheck(w, None)
  }

  /** Filling a slot and emptying it again leaves the count where it was. */
  lemma FillThenEmpty(w: SlotState, slot: nat, hp: Hp, st: Store)
    requires !Recorded(w, slot)
    ensures var r1 := CheckSlot(w, slot, true, hp, st);
            var c1 := r1.change.value;
            var r2 := CheckSlot(r1.slots, slot, false, c1.hp, c1.store);
            r2.change.Some? && r2.change.value.hp == hp && Recorded(r2.slots, slot) == false
  {
  }
}

=== FILE: page.dfy ===
/** The quest HUD as a whole: the section tracker's announcements drive
    autoplay, the HUD's replay button force-plays the current section, and
    the HP counter and the dialog share one session storage. */
module Page {
  import opened Wrappers
  import opened Storage
  import opened SectionTracker
  import opened HpCounter
  import opened Dialog

  /** Everything the HUD keeps between events. */
  datatype App = App(tracker: Tracker, dlg: Dlg, session: Store, hp: Hp, slots: SlotState)

  /** An event's result: the new state and the dialog effects requested. */
  datatype Result = Result(app: App, effects: seq<Effect>)

  function WithPlay(app: App, p: Played): App {
    app.(dlg := p.dlg, session := p.session)
  }

  /** The `sectionchange` listener: an empty id is ignored; otherwise the
      current section's script is offered, unforced, unless its flag is
      already set. */
  function OnSectionChange(app: App, scripts: Scripts, id: string, sp: Speech): (r: Result)
    ensures id == "" || GetItem(app.session, RanKey(id)) == Some("1") ==> r == Result(app, [])
    ensures id != "" && GetItem(app.session, RanKey(id)) != Some("1") ==>
              var p := PlayDialogFor(app.dlg, app.session, scripts, app.tracker.current, false, sp);
              r == Result(WithPlay(app, p), p.effects)
    ensures r.app.tracker == app.tracker && r.app.hp == app.hp && r.app.slots == app.slots
  {
    if id == "" then Result(app, [])
    else if GetItem(app.session, RanKey(id)) != Some("1") then
      var p := PlayDialogFor(app.dlg, app.session, scripts, app.tracker.current, false, sp);
      Result(WithPlay(app, p), p.effects)
    else Result(app, [])
  }

  /** One coalesced scroll recomputation: pick the nearest section and, on an
      announced change, run the autoplay listener. */
  function OnScroll(app: App, secs: seq<Section>, scroll: int, scripts: Scripts, sp: Speech): (r: Result)
    ensures Pick(app.tracker, secs, scroll).changed.None? ==> r == Result(app, [])
    ensures r.app.tracker == Pick(app.tracker, secs, scroll).tracker
    ensures |r.effects| > 0 ==>
              var id := r.app.tracker.current;
              && Pick(app.tracker, secs, scroll).changed == Some(id)
              && WillPlay(app.session, scripts, id, false)
              && GetItem(r.app.session, RanKey(id)) == Some("1")
              && r.app.dlg.open && r.app.dlg.lineIndex == 0 && r.app.dlg.lines == scripts[id]
    ensures var id := r.app.tracker.current;
            Pick(app.tracker, secs, scroll).changed == Some(id) && WillPlay(app.session, scripts, id, false) ==>
              r.app.dlg.open && LineStarted(r.app.dlg, r.effects, scripts[id], 0, app.dlg.holdSpeed, sp)
    ensures Valid(app.dlg) ==> Valid(r.app.dlg)
  {
    var step := Pick(app.tracker, secs, scroll);
    match step.changed
    case None => Result(app, [])
    case Some(id) => OnSectionChange(app.(tracker := step.tracker), scripts, id, sp)
  }

  /** Scrolling to a section whose script already ran never reopens it. */
  lemma {:induction false} NoReplayOnReturn(app: App, secs: seq<Section>, scroll: int, scripts: Scripts, sp: Speech)
    requires GetItem(app.session, RanKey(Pick(app.tracker, secs, scroll).tracker.current)) == Some("1")
    ensures OnScroll(app, secs, scroll, scripts, sp).effects == []
    ensures OnScroll(app, secs, scroll, scripts, sp).app.dlg == app.dlg
  {
    var step := Pick(app.tracker, secs, scroll);
    if step.changed.Some? {
      assert step.changed.value == step.tracker.current;
    }
  }

  /** The HUD's replay button: force-play the current section. */
  function Replay(app: App, scripts: Scripts, sp: Speech): (r: Result)
    ensures var id := app.tracker.current;
            id != "" && id in scripts && |scripts[id]| > 0 ==>
              r.app.dlg.open && LineStarted(r.app.dlg, r.effects, scripts[id], 0, app.dlg.holdSpeed, sp)
              && GetItem(r.app.session, RanKey(id)) == Some("1")
    ensures var id := app.tracker.current;
            !(id != "" && id in scripts && |scripts[id]| > 0) ==> r == Result(app, [])
    ensures Valid(app.dlg) ==> Valid(r.app.dlg)
  {
    var p := PlayDialogFor(app.dlg, app.session, scripts, app.tracker.current, true, sp);
    Result(WithPlay(app, p), p.effects)
  }

  /** What the page offers at start-up: its sections, whether the gate
      overlay is shown, the scroll offset, the form controls, and each slot's
      filled state. */
  datatype PageView = PageView(secs: seq<Section>, gateShown: bool, scroll: int,
                               controls: seq<Control>, slotsFilled: seq<bool>)

  /** Script load and `init`: read the hidden count, take the census, let the
      gate override the initial section, record the slots, recompute the
      current section (which may autoplay through the listener), and finally
      offer the current section's script if its flag is still unset. */
  function Init(page: PageView, session: Store, scripts: Scripts, sp: Speech): (r: Result)
    ensures r.app.hp == Hp(Census(page.controls), LoadHidden(session))
    ensures r.app.slots == WatchInit(page.slotsFilled)
    ensures !page.gateShown ==> r.app.tracker == Pick(Initial(page.secs), page.secs, page.scroll).tracker
    ensures page.gateShown ==> r.app.tracker == Pick(Tracker(GateId), page.secs, page.scroll).tracker
    ensures Valid(r.app.dlg)
    ensures var id := r.app.tracker.current;
            id != "" && id in scripts && |scripts[id]| > 0 ==> GetItem(r.app.session, RanKey(id)) == Some("1")
    ensures var id := r.app.tracker.current;
            WillPlay(session, scripts, id, false) ==>
              r.app.dlg.open && r.app.dlg.lineIndex == 0 && r.app.dlg.lines == scripts[id]
  {
    var app0 := App(Boot(page.secs, page.gateShown), Start, session,
                    Hp(Census(page.controls), LoadHidden(session)), WatchInit(page.slotsFilled));
    StartValid();
    var s := OnScroll(app0, page.secs, page.scroll, scripts, sp);
    var id := s.app.tracker.current;
    if GetItem(s.app.session, RanKey(id)) != Some("1") then
      var p := PlayDialogFor(s.app.dlg, s.app.session, scripts, id, false, sp);
      Result(WithPlay(s.app, p), s.effects + p.effects)
    else s
  }

  /** At start-up the current section's script, when it is due, starts on
      its first line exactly once: whether the recomputation announced it or
      the closing offer played it, the effects are those of one play. */
  lemma {:induction false} InitStartsLine(page: PageView, session: Store, scripts: Scripts, sp: Speech)
    ensures var r := Init(page, session, scripts, sp);
            var id := r.app.tracker.current;
            WillPlay(session, scripts, id, false) ==>
              r.app.dlg.open && LineStarted(r.app.dlg, r.effects, scripts[id], 0, false, sp)
  {
    var app0 := App(Boot(page.secs, page.gateShown), Start, session,
                    Hp(Census(page.controls), LoadHidden(session)), WatchInit(page.slotsFilled));
    var s := OnScroll(app0, page.secs, page.scroll, scripts, sp);
    var id := s.app.tracker.current;
    if WillPlay(session, scripts, id, false) {
      if GetItem(s.app.session, RanKey(id)) != Some("1") {
        var p := PlayDialogFor(s.app.dlg, s.app.session, scripts, id, false, sp);
        assert s == Result(app0, []);
        assert s.effects + p.effects == p.effects;
      } else {
        assert Pick(app0.tracker, page.secs, page.scroll).changed == Some(id);
      }
    }
  }

  /** A reload does not replay: when the start-up section's script is not
      due (its flag is already set, or it has no lines), start-up leaves the
      dialog as it was before anything played, requests nothing and writes
      no flag. */
  lemma {:induction false} InitSkipsPlayed(page: PageView, session: Store, scripts: Scripts, sp: Speech)
    ensures var r := Init(page, session, scripts, sp);
            !WillPlay(session, scripts, r.app.tracker.current, false) ==>
              r.app.dlg == Start && r.effects == [] && r.app.session == session
  {
    var app0 := App(Boot(page.secs, page.gateShown), Start, session,
                    Hp(Census(page.controls), LoadHidden(session)), WatchInit(page.slotsFilled));
    var s := OnScroll(app0, page.secs, page.scroll, scripts, sp);
    var id := s.app.tracker.current;
    if !WillPlay(session, scripts, id, false) {
      var step := Pick(app0.tracker, page.secs, page.scroll);
      assert PlayDialogFor(Start, session, scripts, id, false, sp) == Played(Start, session, []);
      assert s.app == app0.(tracker := step.tracker) && s.effects == [];
    }
  }

  /** Right after start-up, recomputing at the same offset announces
      nothing, so the start-up section is not offered a second time. */
  lemma {:induction false} InitSettles(page: PageView, session: Store, scripts: Scripts, sp: Speech)
    ensures var r := Init(page, session, scripts, sp);
            OnScroll(r.app, page.secs, page.scroll, scripts, sp) == Result(r.app, [])
  {
    var app0 := App(Boot(page.secs, page.gateShown), Start, session,
                    Hp(Census(page.controls), LoadHidden(session)), WatchInit(page.slotsFilled));
    PickSettles(app0.tracker, page.secs, page.scroll);
  }

  /** A slot's mutation batch: check the slot and apply any counter change. */
  function OnSlotMutation(app: App, slot: nat, filled: bool): (r: App)
    ensures Recorded(r.slots, slot) == filled
    ensures r.dlg == app.dlg && r.tracker == app.tracker
    ensures filled && !Recorded(app.slots, slot) ==> Display(r.hp) == Display(app.hp) + 1
    ensures filled && !Recorded(app.slots, slot) ==> r.hp.hidden == app.hp.hidden + 1 && r.hp.base == app.hp.base
    ensures !filled && Recorded(app.slots, slot) ==>
              r.hp.hidden == (if app.hp.hidden > 0 then app.hp.hidden - 1 else 0) && r.hp.base == app.hp.base
    ensures filled == Recorded(app.slots, slot) ==> r == app
    ensures filled != Recorded(app.slots, slot) ==> LoadHidden(r.session) == r.hp.hidden
    ensures forall id :: GetItem(r.session, RanKey(id)) == GetItem(app.session, RanKey(id))
  {
    var c := CheckSlot(app.slots, slot, filled, app.hp, app.session);
    match c.change
    case None => app.(slots := c.slots)
    case Some(ch) =>
      forall id ensures RanKey(id) != HiddenKey {
        RanKeyNotHiddenKey(id);
      }
      app.(slots := c.slots, hp := ch.hp, session := ch.store)
  }

  /** The DOM observer or an input event: recount the controls. */
  function Recount(app: App, controls: seq<Control>): (r: App)
    ensures r.hp == Hp(Census(controls), app.hp.hidden)
    ensures r.hp.hidden == app.hp.hidden && r.session == app.session && r.dlg == app.dlg
  {
    app.(hp := app.hp.(base := Census(controls)))
  }

  /** The dialog flags and the hidden count live under different keys, so
      neither part of the HUD can disturb the other's storage. */
  lemma RanKeyNotHiddenKey(id: string)
    ensures RanKey(id) != HiddenKey
  {
    assert RanKey(id)[0] == 'd';
    assert HiddenKey[0] == 'h';
  }

  /** Playing a dialog leaves the persisted hidden count alone. */
  lemma PlayKeepsHidden(d: Dlg, session: Store, scripts: Scripts, id: string, force: bool, sp: Speech)
    ensures LoadHidden(PlayDialogFor(d, session, scripts, id, force, sp).session) == LoadHidden(session)
  {
    RanKeyNotHiddenKey(id);
    var p := PlayDialogFor(d, session, scripts, id, force, sp);
    assert GetItem(p.session, HiddenKey) == GetItem(session, HiddenKey);
  }
}

=== FILE: section_tracker.dfy ===
/** The section tracker of the quest HUD: which `<section>` of the scroller
    counts as "current" for a scroll offset, and when a change of current
    section is announced.  Offsets are integers here; the page measures them
    with layout queries. */
module SectionTracker {
  import opened Wrappers
  import opened Text

  /** One `#scroller > section`: its id and its top offset, measured from the
      top of the scrollable content. */
  datatype Section = Section(id: string, top: int)

  /** The distance a section must beat to be chosen at all: the scan starts
      with `dist = 1e9`, so a section this far away or farther never wins. */
  const Limit: int := 1_000_000_000

  function Dist(s: Section, scroll: int): nat { Abs(s.top - scroll) }

  /** `i` is what the scan must choose: strictly closer than every earlier
      section, no farther than every later one, and closer than `Limit`. */
  ghost predicate IsNearest(secs: seq<Section>, scroll: int, i: int) {
    && 0 <= i < |secs|
    && Dist(secs[i], scroll) < Limit
    && (forall j :: 0 <= j < i ==> Dist(secs[i], scroll) < Dist(secs[j], scroll))
    && (forall j :: i < j < |secs| ==> Dist(secs[i], scroll) <= Dist(secs[j], scroll))
  }

  /** The scan of `pickCurrentSection`, in document order, replacing the best
      candidate only on a strictly smaller distance. */
  function Nearest(secs: seq<Section>, scroll: int): (r: Option<nat>)
    ensures r.Some? ==> IsNearest(secs, scroll, r.value)
    ensures r.None? <==> forall j :: 0 <= j < |secs| ==> Dist(secs[j], scroll) >= Limit
  {
    if |secs| == 0 then None
    else
      var prefix := secs[..|secs| - 1];
      var prev := Nearest(prefix, scroll);
      var last := |secs| - 1;
      var bound := if prev.Some? then Dist(secs[prev.value], scroll) else Limit;
      assert forall j :: 0 <= j < last ==> secs[j] == prefix[j];
      if Dist(secs[last], scroll) < bound then Some(last) else prev
  }

  /** At most one index meets the choice rule, so it pins the scan down. */
  lemma NearestUnique(secs: seq<Section>, scroll: int, i: int, k: int)
    requires IsNearest(secs, scroll, i) && IsNearest(secs, scroll, k)
    ensures i == k
  {
  }

  lemma NearestIsTheOne(secs: seq<Section>, scroll: int, i: int)
    requires IsNearest(secs, scroll, i)
    ensures Nearest(secs, scroll) == Some(i)
  {
    var r := Nearest(secs, scroll);
    if r.Some? {
      NearestUnique(secs, scroll, r.value, i);
    }
  }

  /** The tracker's only state is the current section id. */
  datatype Tracker = Tracker(current: string)

  /** The result of one recomputation: the new tracker state and the
      `sectionchange` notification, if one was dispatched. */
  datatype Step = Step(tracker: Tracker, changed: Option<string>)

  /** The initial current section: the second section's id, else the first
      one's, else the empty id.  The source combines the candidates with
      `||`, so an empty id of the second section falls through to the first. */
  function Initial(secs: seq<Section>): (t: Tracker)
    ensures |secs| == 0 ==> t.current == ""
    ensures |secs| >= 2 && secs[1].id != "" ==> t.current == secs[1].id
    ensures |secs| >= 1 && (|secs| == 1 || secs[1].id == "") ==> t.current == secs[0].id
  {
    if |secs| >= 2 && secs[1].id != "" then Tracker(secs[1].id)
    else if |secs| >= 1 then Tracker(secs[0].id)
    else Tracker("")
  }

  /** Bootstrap overrides the initial choice with the gate section while the
      gate overlay is shown. */
  const GateId: string := "sec-gate"

  function Boot(secs: seq<Section>, gateShown: bool): (t: Tracker)
    ensures gateShown ==> t.current == GateId
    ensures !gateShown ==> t == Initial(secs)
  {
    if gateShown then Tracker(GateId) else Initial(secs)
  }

  /** The start-up section is the gate, or one of the first two sections,
      and it has an id whenever the gate is shown or one of those two
      sections has one.  It is empty only on a page without sections or
      whose first two sections both lack an id. */
  lemma BootChoice(secs: seq<Section>, gateShown: bool)
    ensures var c := Boot(secs, gateShown).current;
            && (c == GateId || c == "" || exists i :: 0 <= i < 2 && i < |secs| && secs[i].id == c)
            && (c == "" <==> !gateShown && forall i :: 0 <= i < 2 && i < |secs| ==> secs[i].id == "")
  {
    var c := Boot(secs, gateShown).current;
    if !gateShown {
      if |secs| >= 2 && secs[1].id != "" {
        assert secs[1].id == c;
      } else if |secs| >= 1 {
        assert secs[0].id == c;
        assert forall i :: 0 <= i < 2 && i < |secs| && i != 0 ==> secs[i].id == "";
      }
    }
  }

  /** `pickCurrentSection`: choose the nearest section and, only when its id
      differs from the current one, adopt it and announce it. */
  function Pick(t: Tracker, secs: seq<Section>, scroll: int): (r: Step)
    ensures r.changed.Some? <==>
              exists i :: IsNearest(secs, scroll, i) && secs[i].id != t.current
    ensures r.changed.Some? ==> r.tracker.current == r.changed.value
                                && exists i :: IsNearest(secs, scroll, i) && secs[i].id == r.changed.value
    ensures r.changed.None? ==> r.tracker == t
    ensures |secs| == 0 ==> r == Step(t, None)
  {
    match Nearest(secs, scroll)
    case None => Step(t, None)
    case Some(i) =>
      forall k | IsNearest(secs, scroll, k) ensures k == i {
        NearestUnique(secs, scroll, k, i);
      }
      if secs[i].id != t.current then Step(Tracker(secs[i].id), Some(secs[i].id))
      else Step(t, None)
  }

  /** Recomputing again at the same offset announces nothing: notifications
      fire only on an actual change. */
  lemma {:induction false} PickSettles(t: Tracker, secs: seq<Section>, scroll: int)
    ensures Pick(Pick(t, secs, scroll).tracker, secs, scroll) == Step(Pick(t, secs, scroll).tracker, None)
  {
    var r := Pick(t, secs, scroll);
    match Nearest(secs, scroll)
    case None =>
    case Some(i) =>
      NearestIsTheOne(secs, scroll, i);
      assert r.tracker.current == secs[i].id;
  }

  /** Sections at 0, 500 and 1000 with the page scrolled to 520: the section
      at 500 becomes current and is announced. */
  lemma ThreeSections()
    ensures var secs := [Section("sec-gate", 0), Section("sec-intro", 500), Section("sec-what", 1000)];
            Pick(Tracker("sec-gate"), secs, 520) == Step(Tracker("sec-intro"), Some("sec-intro"))
  {
    var secs := [Section("sec-gate", 0), Section("sec-intro", 500), Section("sec-what", 1000)];
    assert IsNearest(secs, 520, 1);
    NearestIsTheOne(secs, 520, 1);
  }

  /** Two sections equally far from the offset: the earlier one wins. */
  lemma TieGoesToEarlier()
    ensures Nearest([Section("a", 0), Section("b", 200)], 100) == Some(0)
  {
    assert IsNearest([Section("a", 0), Section("b", 200)], 100, 0);
    NearestIsTheOne([Section("a", 0), Section("b", 200)], 100, 0);
  }
}

=== FILE: text.dfy ===
/** Optional values, standing in for JavaScript's `null` / `undefined`. */
module Wrappers {

  datatype Option<+T> = None | Some(value: T) {

    /** The value in Some, or `default` for None (JavaScript's `x || default`
        when x can only be missing, never falsy). */
    function GetOr(default: T): T {
      match this
      case Some(v) => v
      case None => default
    }
  }
}

/** Browser key/value storage (`sessionStorage`, `localStorage`): a map from
    string keys to string values.  `getItem` of a missing key yields `null`,
    modelled as None. */
module Storage {
  import opened Wrappers

  type Store = map<string, string>

  function GetItem(st: Store, key: string): (r: Option<string>)
    ensures r.Some? <==> key in st
    ensures r.Some? ==> r.value == st[key]
  {
    if key in st then Some(st[key]) else None
  }

  function SetItem(st: Store, key: string, value: string): (r: Store)
    ensures GetItem(r, key) == Some(value)
    ensures forall k :: k != key ==> GetItem(r, k) == GetItem(st, k)
  {
    st[key := value]
  }
}

/** The string helpers the scripts lean on: ASCII case folding, substring
    search, whitespace trimming, and base-10 conversion between naturals and
    their decimal spelling (`String(n)` and `parseInt(s, 10)`). */
module Text {
  import opened Wrappers

  // ---------------------------------------------------------------------
  // Case folding

  predicate IsUpper(c: char) { 'A' <= c <= 'Z' }

  function LowerChar(c: char): (r: char)
    ensures !IsUpper(r)
    ensures IsUpper(c) ==> r as int == c as int + 32
    ensures !IsUpper(c) ==> r == c
  {
    if IsUpper(c) then (c as int + 32) as char else c
  }

  /** `s.toLowerCase()` restricted to ASCII letters. */
  function Lower(s: string): (r: string)
    ensures |r| == |s|
    ensures forall i :: 0 <= i < |s| ==> r[i] == LowerChar(s[i])
  {
    if |s| == 0 then "" else [LowerChar(s[0])] + Lower(s[1..])
  }

  // ---------------------------------------------------------------------
  // Substring search, the meaning of an unanchored regular expression
  // alternative such as /male/.

  ghost predicate OccursAt(s: string, pat: string, i: int) {
    0 <= i && i + |pat| <= |s| && s[i..i + |pat|] == pat
  }

  function Contains(s: string, pat: string): (r: bool)
    ensures r <==> exists i :: OccursAt(s, pat, i)
    decreases |s|
  {
    if pat <= s then
      assert OccursAt(s, pat, 0);
      true
    else if |s| == 0 then
      assert forall i :: !OccursAt(s, pat, i);
      false
    else
      var rest := Contains(s[1..], pat);
      assert forall i :: OccursAt(s[1..], pat, i) <==> OccursAt(s, pat, i + 1) by {
        forall i ensures OccursAt(s[1..], pat, i) <==> OccursAt(s, pat, i + 1) {
          if 0 <= i && i + |pat| <= |s[1..]| {
            assert s[1..][i..i + |pat|] == s[i + 1..i + 1 + |pat|];
          }
        }
      }
      assert !OccursAt(s, pat, 0);
      assert forall i :: OccursAt(s, pat, i) ==> i == 0 || OccursAt(s[1..], pat, i - 1);
      rest
  }

  // ---------------------------------------------------------------------
  // Whitespace and trimming (String.prototype.trim)

  /** The whitespace and line terminators `trim` removes, restricted to the
      common ones (tab, line feed, vertical tab, form feed, carriage return,
      space, no-break space, the line and paragraph separators, and the byte
      order mark). */
  predicate IsSpace(c: char) {
    c == ' ' || c == '\t' || c == '\n' || c == '\U{B}' || c == '\U{C}' || c == '\r'
    || c == '\U{A0}' || c == '\U{2028}' || c == '\U{2029}' || c == '\U{FEFF}'
  }

  predicate AllSpace(s: string) {
    forall i :: 0 <= i < |s| ==> IsSpace(s[i])
  }

  /** `s` without its leading whitespace. */
  function TrimStart(s: string): (r: string)
    ensures |r| <= |s|
  {
    if |s| > 0 && IsSpace(s[0]) then TrimStart(s[1..]) else s
  }

  /** What `TrimStart` removes is whitespace, and what it keeps is a suffix
      that does not start with whitespace. */
  lemma {:induction false} TrimStartSpec(s: string)
    ensures var r := TrimStart(s);
            && r == s[|s| - |r|..]
            && AllSpace(s[..|s| - |r|])
            && (|r| > 0 ==> !IsSpace(r[0]))
  {
    if |s| > 0 && IsSpace(s[0]) {
      TrimStartSpec(s[1..]);
      var r := TrimStart(s);
      assert s[1..][..|s[1..]| - |r|] == s[1..|s| - |r|];
    }
  }

  /** `s` without its trailing whitespace. */
  function TrimEnd(s: string): (r: string)
    ensures |r| <= |s|
  {
    if |s| > 0 && IsSpace(s[|s| - 1]) then TrimEnd(s[..|s| - 1]) else s
  }

  /** What `TrimEnd` removes is whitespace, and what it keeps is a prefix
      that does not end with whitespace. */
  lemma {:induction false} TrimEndSpec(s: string)
    ensures var r := TrimEnd(s);
            && r == s[..|r|]
            && AllSpace(s[|r|..])
            && (|r| > 0 ==> !IsSpace(r[|r| - 1]))
  {
    if |s| > 0 && IsSpace(s[|s| - 1]) {
      var t := s[..|s| - 1];
      TrimEndSpec(t);
      var r := TrimEnd(s);
      assert s[|r|..] == t[|r|..] + [s[|s| - 1]];
    }
  }

  /** `s.trim()`: the part of `s` left after removing leading and trailing
      whitespace. */
  function Trim(s: string): (r: string)
    ensures |r| <= |s|
    ensures |r| > 0 ==> !IsSpace(r[0]) && !IsSpace(r[|r| - 1])
  {
    TrimStartSpec(s);
    TrimEndSpec(TrimStart(s));
    TrimEnd(TrimStart(s))
  }

  /** The trimmed string is a run of `s` with only whitespace before and
      after it. */
  lemma TrimInfix(s: string)
    ensures var r := Trim(s);
            exists i :: 0 <= i <= |s| - |r| && s[i..i + |r|] == r
                        && AllSpace(s[..i]) && AllSpace(s[i + |r|..])
  {
    var a := TrimStart(s);
    var r := Trim(s);
    TrimStartSpec(s);
    TrimEndSpec(a);
    var i := |s| - |a|;
    assert s[i..i + |r|] == r by {
      assert s[i..] == a;
      assert a[..|r|] == r;
    }
    assert s[i + |r|..] == a[|r|..];
  }

  /** An all-whitespace string trims to the empty string, and only one does. */
  lemma TrimEmptyIffBlank(s: string)
    ensures Trim(s) == "" <==> AllSpace(s)
  {
    var a := TrimStart(s);
    TrimStartSpec(s);
    TrimEndSpec(a);
    if Trim(s) == "" {
      assert AllSpace(a[0..]);
      assert a[0..] == a;
      assert s == s[..|s| - |a|] + a;
    } else {
      assert a[0] == s[|s| - |a|];
    }
  }

  // ---------------------------------------------------------------------
  // Decimal digits

  /** The magnitude of an integer. */
  function Abs(x: int): nat { if x < 0 then -x else x }

  predicate IsDigit(c: char) { '0' <= c <= '9' }

  function DigitValue(c: char): (d: nat)
    requires IsDigit(c)
    ensures d < 10
  {
    c as int - '0' as int
  }

  function DigitChar(d: nat): (c: char)
    requires d < 10
    ensures IsDigit(c) && DigitValue(c) == d
  {
    ('0' as int + d) as char
  }

  predicate AllDigits(s: string) {
    forall i :: 0 <= i < |s| ==> IsDigit(s[i])
  }

  /** The number a string of decimal digits spells, most significant first. */
  function DigitsValue(s: string): nat
    requires AllDigits(s)
  {
    if |s| == 0 then 0 else DigitsValue(s[..|s| - 1]) * 10 + DigitValue(s[|s| - 1])
  }

  /** `String(n)` for a natural number: its shortest decimal spelling. */
  function NatToString(n: nat): (s: string)
    ensures |s| > 0 && AllDigits(s)
    ensures s[0] == '0' ==> n == 0 && s == "0"
  {
    if n < 10 then [DigitChar(n)]
    else
      var p := NatToString(n / 10);
      assert (p + [DigitChar(n % 10)])[0] == p[0];
      p + [DigitChar(n % 10)]
  }

  lemma {:induction false} NatToStringValue(n: nat)
    ensures DigitsValue(NatToString(n)) == n
  {
    if n >= 10 {
      NatToStringValue(n / 10);
      var s := NatToString(n);
      assert s[..|s| - 1] == NatToString(n / 10);
    }
  }

  /** The longest prefix of `s` made of decimal digits. */
  function DigitPrefix(s: string): (r: string)
    ensures r <= s && AllDigits(r)
    ensures |r| < |s| ==> !IsDigit(s[|r|])
  {
    if |s| > 0 && IsDigit(s[0]) then [s[0]] + DigitPrefix(s[1..]) else ""
  }

  lemma {:induction false} DigitPrefixOfDigits(s: string)
    requires AllDigits(s)
    ensures DigitPrefix(s) == s
  {
    if |s| > 0 {
      DigitPrefixOfDigits(s[1..]);
    }
  }

  /** `parseInt(s, 10)`: skip leading whitespace, read an optional sign and
      then the longest run of digits; no digits at all gives NaN (None).
      The magnitude is exact here, where the source rounds very long runs of
      digits to the nearest double. */
  function ParseInt(s: string): (r: Option<int>)
    ensures r.None? <==> DigitPrefix(SignFree(TrimStart(s))) == ""
  {
    var t := TrimStart(s);
    var body := SignFree(t);
    var digits := DigitPrefix(body);
    if digits == "" then None
    else
      var magnitude: int := DigitsValue(digits);
      if |t| > 0 && t[0] == '-' then Some(-magnitude) else Some(magnitude)
  }

  /** The text after an optional leading `+` or `-`. */
  function SignFree(t: string): (r: string)
    ensures r == t || (|t| > 0 && (t[0] == '+' || t[0] == '-') && r == t[1..])
  {
    if |t| > 0 && (t[0] == '+' || t[0] == '-') then t[1..] else t
  }

  /** Leading whitespace in front of a non-space character is all that
      `TrimStart` removes. */
  lemma {:induction false} TrimStartSkips(ws: string, x: string)
    requires AllSpace(ws)
    requires |x| == 0 || !IsSpace(x[0])
    ensures TrimStart(ws + x) == x
  {
    if |ws| > 0 {
      assert (ws + x)[0] == ws[0];
      assert (ws + x)[1..] == ws[1..] + x;
      TrimStartSkips(ws[1..], x);
    } else {
      assert ws + x == x;
    }
  }

  /** A run of digits followed by a non-digit is the digit prefix. */
  lemma {:induction false} DigitPrefixStops(digits: string, rest: string)
    requires AllDigits(digits)
    requires |rest| == 0 || !IsDigit(rest[0])
    ensures DigitPrefix(digits + rest) == digits
  {
    if |digits| > 0 {
      assert (digits + rest)[0] == digits[0];
      assert (digits + rest)[1..] == digits[1..] + rest;
      DigitPrefixStops(digits[1..], rest);
    } else {
      assert digits + rest == rest;
    }
  }

  /** What `parseInt(s, 10)` reads: after leading whitespace and an optional
      sign, the run of digits up to the first non-digit, negated after a
      minus sign. */
  lemma ParseIntValue(ws: string, sign: string, digits: string, rest: string)
    requires AllSpace(ws)
    requires sign == "" || sign == "+" || sign == "-"
    requires |digits| > 0 && AllDigits(digits)
    requires |rest| == 0 || !IsDigit(rest[0])
    ensures var v: int := DigitsValue(digits);
            ParseInt(ws + sign + digits + rest) == Some(if sign == "-" then -v else v)
  {
    var t := sign + digits + rest;
    ConcatAssoc(ws, sign, digits, rest);
    TrimStartSkipsSign(ws, sign, digits, rest);
    SignFreeOfSign(sign, digits, rest);
    DigitPrefixStops(digits, rest);
    ParseIntReads(ws + t, t, digits);
  }

  /** `ParseInt` reads the digit run `d` of the trimmed text `t`. */
  lemma ParseIntReads(s: string, t: string, d: string)
    requires TrimStart(s) == t && DigitPrefix(SignFree(t)) == d && d != ""
    ensures var v: int := DigitsValue(d);
            ParseInt(s) == Some(if |t| > 0 && t[0] == '-' then -v else v)
  {
  }

  lemma ConcatAssoc(a: string, b: string, c: string, d: string)
    ensures a + b + c + d == a + (b + c + d)
  {
  }

  lemma TrimStartSkipsSign(ws: string, sign: string, digits: string, rest: string)
    requires AllSpace(ws)
    requires sign == "" || sign == "+" || sign == "-"
    requires |digits| > 0 && AllDigits(digits)
    ensures TrimStart(ws + (sign + digits + rest)) == sign + digits + rest
  {
    var t := sign + digits + rest;
    assert t[0] == if sign == "" then digits[0] else sign[0];
    TrimStartSkips(ws, t);
  }

  lemma SignFreeOfSign(sign: string, digits: string, rest: string)
    requires sign == "" || sign == "+" || sign == "-"
    requires |digits| > 0 && AllDigits(digits)
    ensures var t := sign + digits + rest;
            SignFree(t) == digits + rest && (|t| > 0 && t[0] == '-' <==> sign == "-")
  {
    var t := sign + digits + rest;
    if sign == "" {
      assert t == digits + rest;
    } else {
      assert t[1..] == digits + rest;
    }
  }

  /** Reading back what `String(n)` wrote gives `n`. */
  lemma ParseNatToString(n: nat)
    ensures ParseInt(NatToString(n)) == Some(n)
  {
    var s := NatToString(n);
    assert TrimStart(s) == s;
    assert SignFree(s) == s;
    DigitPrefixOfDigits(s);
    NatToStringValue(n);
  }
}

=== FILE: theme.dfy ===
/** The page theme of `script.js`: the saved or system theme, switching and
    persisting it, the toggle button's icon and label, and the hourly
    background gradient index. */
module Theme {
  import opened Wrappers
  import opened Storage

  /** Local-storage key of the saved theme. */
  const ThemeKey: string := "bgr-theme"

  const Light: string := "light"
  const Dark: string := "dark"

  /** Both gradient lists hold this many entries. */
  const Count: nat := 12

  predicate IsTheme(t: string) { t == Light || t == Dark }

  /** `idxForHour`: the gradient shown during hour `h` of the day. */
  function IdxForHour(h: nat): (i: nat)
    ensures i < Count
    ensures h < Count ==> i == h
    ensures exists q: nat :: h == q * Count + i
  {
    assert h == (h / Count) * Count + h % Count;
    h % Count
  }

  /** Every hour a clock reports selects an entry of either 12-entry list,
      and the two halves of the day show the same sequence of backgrounds. */
  lemma HourIndexValid(h: nat)
    requires h <= 23
    ensures IdxForHour(h) < Count
    ensures h >= 12 ==> IdxForHour(h) == IdxForHour(h - 12) == h - 12
  {
  }

  /** `getTheme`: a saved "light" or "dark" wins; anything else falls back to
      the system preference (false when media queries are unavailable). */
  function GetTheme(local: Store, prefersDark: bool): (t: string)
    ensures IsTheme(t)
    ensures GetItem(local, ThemeKey).Some? && IsTheme(GetItem(local, ThemeKey).value) ==>
              t == GetItem(local, ThemeKey).value
    ensures !(GetItem(local, ThemeKey).Some? && IsTheme(GetItem(local, ThemeKey).value)) ==>
              t == (if prefersDark then Dark else Light)
  {
    match GetItem(local, ThemeKey)
    case Some(saved) =>
      if saved == Light || saved == Dark then saved
      else if prefersDark then Dark else Light
    case None => if prefersDark then Dark else Light
  }

  /** The icon on the toggle button: a sun in the dark theme, a moon
      otherwise. */
  datatype Icon = Sun | Moon

  /** What `setTheme` leaves on the page: the `data-theme` attribute, the
      palette the background is drawn from, and the button's icon and label. */
  datatype View = View(dataTheme: string, darkPalette: bool, icon: Icon, ariaLabel: string)

  /** `themeIconSVG`. */
  function IconFor(theme: string): (i: Icon)
    ensures i == Sun <==> theme == Dark
  {
    if theme == Dark then Sun else Moon
  }

  /** The other theme. */
  function Opposite(theme: string): (o: string)
    ensures IsTheme(o)
    ensures theme == Dark ==> o == Light
    ensures theme != Dark ==> o == Dark
  {
    if theme == Dark then Light else Dark
  }

  /** `updateThemeIcon`'s label. */
  function LabelFor(theme: string): string {
    "Switch to " + Opposite(theme) + " theme"
  }

  /** The label always names the theme other than the given one. */
  lemma LabelNamesOpposite(theme: string)
    requires IsTheme(theme)
    ensures theme == Dark ==> LabelFor(theme) == "Switch to light theme"
    ensures theme == Light ==> LabelFor(theme) == "Switch to dark theme"
    ensures Opposite(theme) != theme && IsTheme(Opposite(theme))
  {
  }

  /** `setTheme(theme)`: persist the argument as given and redraw.  The
      palette follows the theme `getTheme` now resolves, while the attribute,
      icon and label follow the argument itself. */
  function SetTheme(local: Store, prefersDark: bool, theme: string): (r: (Store, View))
    ensures GetItem(r.0, ThemeKey) == Some(theme)
    ensures forall k :: k != ThemeKey ==> GetItem(r.0, k) == GetItem(local, k)
    ensures IsTheme(theme) ==> GetTheme(r.0, prefersDark) == theme
    ensures r.1.dataTheme == theme && r.1.icon == IconFor(theme) && r.1.ariaLabel == LabelFor(theme)
    ensures r.1.darkPalette <==> GetTheme(r.0, prefersDark) == Dark
  {
    var st := SetItem(local, ThemeKey, theme);
    (st, View(theme, GetTheme(st, prefersDark) == Dark, IconFor(theme), LabelFor(theme)))
  }

  /** `toggleTheme`: switch to the theme other than the resolved one. */
  function ToggleTheme(local: Store, prefersDark: bool): (r: (Store, View))
    ensures GetTheme(r.0, prefersDark) == Opposite(GetTheme(local, prefersDark))
    ensures GetTheme(r.0, prefersDark) != GetTheme(local, prefersDark)
    ensures r.1.darkPalette <==> GetTheme(r.0, prefersDark) == Dark
  {
    SetTheme(local, prefersDark, Opposite(GetTheme(local, prefersDark)))
  }

  /** Start-up: `setTheme(getTheme())` persists the resolved theme, so the
      saved entry is always a valid theme afterwards, and the palette, icon and
      attribute all agree with it. */
  function BootTheme(local: Store, prefersDark: bool): (r: (Store, View))
    ensures GetItem(r.0, ThemeKey) == Some(GetTheme(local, prefersDark))
    ensures GetTheme(r.0, prefersDark) == GetTheme(local, prefersDark)
    ensures r.1.dataTheme == GetTheme(local, prefersDark)
    ensures r.1.darkPalette <==> r.1.icon == Sun
  {
    SetTheme(local, prefersDark, GetTheme(local, prefersDark))
  }

  /** Toggling twice brings back the resolved theme, and with it the same
      icon, label and palette. */
  lemma ToggleTwice(local: Store, prefersDark: bool)
    ensures var once := ToggleTheme(local, prefersDark);
            var twice := ToggleTheme(once.0, prefersDark);
            GetTheme(twice.0, prefersDark) == GetTheme(local, prefersDark)
            && twice.1 == SetTheme(local, prefersDark, GetTheme(local, prefersDark)).1
  {
  }

  /** The button's label announces exactly what pressing it does: after a
      toggle, the resolved theme is the one the old label named. */
  lemma LabelPredictsToggle(local: Store, prefersDark: bool)
    ensures var t := GetTheme(local, prefersDark);
            LabelFor(t) == "Switch to " + GetTheme(ToggleTheme(local, prefersDark).0, prefersDark) + " theme"
  {
  }

  /** A theme name that is neither "light" nor "dark", passed straight to
      `setTheme`, is stored but ignored when read back. */
  lemma UnknownThemeFallsBack(local: Store, prefersDark: bool, theme: string)
    requires !IsTheme(theme)
    ensures GetTheme(SetTheme(local, prefersDark, theme).0, prefersDark) == (if prefersDark then Dark else Light)
  {
  }
}

=== FILE: toc.dfy ===
/** The instructions' table of contents in `script.js`: the children of the
    instructions body are grouped into one section wrapper per titled H2/H3
    heading, each wrapper gets a chip, the chips are sized so five fit, and
    choosing a chip leaves only its wrapper visible.  The grouping appears
    twice: `Partition` is the grouping the loop is meant to perform, and
    `PartitionAsWritten` the one it performs, where each wrapper holds only
    its heading. */
module Toc {
  import opened Wrappers
  import opened Text

  /** A child node of the instructions body: an element with its upper-case
      tag name, its `id` attribute (None when absent) and its text content,
      or any other node. */
  datatype Node = Element(tag: string, id: Option<string>, content: string) | TextNode(text: string)

  /** An H2 or H3 element: where a wrapper's content stops. */
  predicate IsBreak(n: Node) {
    n.Element? && (n.tag == "H2" || n.tag == "H3")
  }

  /** A heading that gets a wrapper: an H2/H3 whose `id` is present and not
      blank.  `QualifiesIff` shows this is the source's test that the
      trimmed id is non-empty. */
  predicate Qualifies(n: Node) {
    IsBreak(n) && n.id.Some? && !AllSpace(n.id.value)
  }

  lemma QualifiesIff(n: Node)
    ensures Qualifies(n) <==> IsBreak(n) && n.id.Some? && Trim(n.id.value) != ""
  {
    if n.Element? && n.id.Some? {
      TrimEmptyIffBlank(n.id.value);
    }
  }

  /** A child of the body after the grouping: left in place, or a wrapper
      holding the nodes moved into it, its heading first. */
  datatype Item = Loose(node: Node) | Wrapper(nodes: seq<Node>)

  /** The id a heading's wrapper gets: the trimmed id with "-section"
      appended. */
  function WrapperId(h: Node): string {
    (if h.Element? then Trim(h.id.GetOr("")) else "") + "-section"
  }

  /** The `data-title` a heading's wrapper gets: the trimmed heading text. */
  function Title(h: Node): string {
    if h.Element? then Trim(h.content) else ""
  }

  /** In the intended grouping, how many nodes a heading at the front of
      `ns` takes into its wrapper: itself and the siblings up to the next
      H2/H3. */
  function Span(ns: seq<Node>): (k: nat)
    requires |ns| > 0
    ensures 1 <= k <= |ns|
    ensures forall i :: 1 <= i < k ==> !IsBreak(ns[i])
    ensures k < |ns| ==> IsBreak(ns[k])
  {
    if |ns| == 1 || IsBreak(ns[1]) then 1
    else
      var k := Span(ns[1..]);
      assert forall i :: 2 <= i < k + 1 ==> ns[i] == ns[1..][i - 1];
      k + 1
  }

  /** The grouping `setupInstructionsTOC` is meant to perform: each
      qualifying heading, in order, is wrapped in place together with the
      siblings after it up to the next H2/H3; everything else stays where it
      was. */
  function Partition(ns: seq<Node>): seq<Item>
    decreases |ns|
  {
    if |ns| == 0 then []
    else if Qualifies(ns[0]) then
      var k := Span(ns);
      [Wrapper(ns[..k])] + Partition(ns[k..])
    else [Loose(ns[0])] + Partition(ns[1..])
  }

  /** The nodes an item holds. */
  function Nodes(it: Item): seq<Node> {
    match it
    case Loose(n) => [n]
    case Wrapper(ns) => ns
  }

  /** The nodes of the body after grouping, in document order, as if the
      wrappers were transparent. */
  function Flatten(items: seq<Item>): seq<Node> {
    if |items| == 0 then []
    else Nodes(items[0]) + Flatten(items[1..])
  }

  /** The item begins with node `n`. */
  predicate StartsWith(it: Item, n: Node) {
    match it
    case Loose(m) => m == n
    case Wrapper(ns) => |ns| > 0 && ns[0] == n
  }

  /** What the grouping promises of each item: a wrapper starts with a
      qualifying heading and holds no other H2/H3; a node left loose is not a
      qualifying heading. */
  ghost predicate WellFormed(it: Item) {
    match it
    case Loose(n) => !Qualifies(n)
    case Wrapper(ns) =>
      && |ns| > 0 && Qualifies(ns[0])
      && forall i :: 1 <= i < |ns| ==> !IsBreak(ns[i])
  }

  /** Every wrapper reaches up to the next H2/H3 or the end of the body. */
  ghost predicate Maximal(items: seq<Item>) {
    forall i :: 0 <= i < |items| - 1 && items[i].Wrapper? ==> StartsWithBreak(items[i + 1])
  }

  /** The item begins with an H2/H3. */
  predicate StartsWithBreak(it: Item) {
    match it
    case Loose(n) => IsBreak(n)
    case Wrapper(ns) => |ns| > 0 && IsBreak(ns[0])
  }

  /** The headings of the wrappers, in order. */
  function Heads(items: seq<Item>): seq<Node> {
    if |items| == 0 then []
    else (if items[0].Wrapper? && |items[0].nodes| > 0 then [items[0].nodes[0]] else []) + Heads(items[1..])
  }

  /** The qualifying headings, in document order. */
  function Qualifying(ns: seq<Node>): seq<Node> {
    if |ns| == 0 then [] else (if Qualifies(ns[0]) then [ns[0]] else []) + Qualifying(ns[1..])
  }

  /** Nodes without an H2/H3 hold no qualifying heading. */
  lemma {:induction false} NoQualifying(ns: seq<Node>)
    requires forall i :: 0 <= i < |ns| ==> !IsBreak(ns[i])
    ensures Qualifying(ns) == []
  {
    if |ns| > 0 {
      NoQualifying(ns[1..]);
    }
  }

  lemma {:induction false} QualifyingAppend(a: seq<Node>, b: seq<Node>)
    ensures Qualifying(a + b) == Qualifying(a) + Qualifying(b)
  {
    if |a| > 0 {
      assert (a + b)[0] == a[0];
      assert (a + b)[1..] == a[1..] + b;
      QualifyingAppend(a[1..], b);
    } else {
      assert a + b == b;
    }
  }

  /** The first item of the grouping and the node count it covers. */
  function FirstItem(ns: seq<Node>): (r: (Item, nat))
    requires |ns| > 0
    ensures 1 <= r.1 <= |ns|
    ensures Partition(ns) == [r.0] + Partition(ns[r.1..])
    ensures Nodes(r.0) == ns[..r.1]
  {
    if Qualifies(ns[0]) then (Wrapper(ns[..Span(ns)]), Span(ns)) else (Loose(ns[0]), 1)
  }

  lemma FlattenCons(it: Item, rest: seq<Item>)
    ensures Flatten([it] + rest) == Nodes(it) + Flatten(rest)
  {
    assert ([it] + rest)[1..] == rest;
  }

  lemma ConcatSplit<T>(s: seq<T>, k: nat)
    requires k <= |s|
    ensures s[..k] + s[k..] == s
  {
  }

  /** Read through the wrappers, the grouping is the first item's nodes
      followed by the grouping of the rest. */
  lemma FlattenFirst(ns: seq<Node>)
    requires |ns| > 0
    ensures Flatten(Partition(ns)) == ns[..FirstItem(ns).1] + Flatten(Partition(ns[FirstItem(ns).1..]))
  {
    var (it, k) := FirstItem(ns);
    FlattenCons(it, Partition(ns[k..]));
  }

  /** The grouping moves nodes but never reorders, drops or duplicates one:
      read through the wrappers, the body is what it was. */
  lemma {:induction false} PartitionPreservesOrder(ns: seq<Node>)
    ensures Flatten(Partition(ns)) == ns
    decreases |ns|
  {
    if |ns| > 0 {
      var k := FirstItem(ns).1;
      FlattenFirst(ns);
      PartitionPreservesOrder(ns[k..]);
      ConcatSplit(ns, k);
    }
  }

  /** The grouping's first item begins with the body's first node. */
  lemma PartitionStartsWithFirst(ns: seq<Node>)
    requires |ns| > 0
    ensures |Partition(ns)| > 0 && StartsWith(Partition(ns)[0], ns[0])
  {
  }

  /** The first item has the promised shape and begins with the first node. */
  lemma FirstItemWellFormed(ns: seq<Node>)
    requires |ns| > 0
    ensures WellFormed(FirstItem(ns).0) && StartsWith(FirstItem(ns).0, ns[0])
  {
  }

  /** A wrapper stops only at an H2/H3 or the end of the body. */
  lemma FirstItemStops(ns: seq<Node>)
    requires |ns| > 0
    ensures FirstItem(ns).0.Wrapper? && FirstItem(ns).1 < |ns| ==> IsBreak(ns[FirstItem(ns).1])
  {
  }

  /** The first item's heading is the one qualifying heading among the nodes
      it covers. */
  lemma FirstItemHeads(ns: seq<Node>)
    requires |ns| > 0
    ensures Heads([FirstItem(ns).0]) == Qualifying(ns[..FirstItem(ns).1])
  {
    var (it, k) := FirstItem(ns);
    var tail := ns[1..k];
    assert ns[..k] == [ns[0]] + tail;
    QualifyingAppend([ns[0]], tail);
    assert forall i :: 0 <= i < |tail| ==> tail[i] == ns[i + 1];
    NoQualifying(tail);
    assert Heads([it]) == (if it.Wrapper? then [ns[0]] else []) + Heads([]);
  }

  /** Every item of the grouping has the promised shape. */
  lemma {:induction false} PartitionWellFormed(ns: seq<Node>)
    ensures forall i :: 0 <= i < |Partition(ns)| ==> WellFormed(Partition(ns)[i])
    decreases |ns|
  {
    if |ns| > 0 {
      var p := Partition(ns);
      var (it, k) := FirstItem(ns);
      PartitionWellFormed(ns[k..]);
      FirstItemWellFormed(ns);
      forall i | 0 <= i < |p|
        ensures WellFormed(p[i])
      {
        if i > 0 {
          assert p[i] == Partition(ns[k..])[i - 1];
        }
      }
    }
  }

  /** Each wrapper runs up to the next H2/H3 or the end of the body. */
  lemma {:induction false} PartitionMaximal(ns: seq<Node>)
    ensures Maximal(Partition(ns))
    decreases |ns|
  {
    if |ns| > 0 {
      var p := Partition(ns);
      var (it, k) := FirstItem(ns);
      var rest := Partition(ns[k..]);
      PartitionMaximal(ns[k..]);
      FirstItemStops(ns);
      if it.Wrapper? && |p| > 1 {
        PartitionStartsWithFirst(ns[k..]);
        assert p[1] == rest[0];
        assert StartsWith(p[1], ns[k..][0]) && IsBreak(ns[k..][0]);
      }
      forall i | 1 <= i < |p| - 1 && p[i].Wrapper?
        ensures StartsWithBreak(p[i + 1])
      {
        assert p[i] == rest[i - 1];
        assert p[i + 1] == rest[i];
      }
    }
  }

  lemma {:induction false} HeadsAppend(a: seq<Item>, b: seq<Item>)
    ensures Heads(a + b) == Heads(a) + Heads(b)
  {
    if |a| > 0 {
      assert (a + b)[0] == a[0];
      assert (a + b)[1..] == a[1..] + b;
      HeadsAppend(a[1..], b);
    } else {
      assert a + b == b;
    }
  }

  /** The wrapper headings are the first item's qualifying heading, if any,
      followed by those of the rest of the grouping. */
  lemma HeadsFirst(ns: seq<Node>)
    requires |ns| > 0
    ensures Heads(Partition(ns)) == Qualifying(ns[..FirstItem(ns).1]) + Heads(Partition(ns[FirstItem(ns).1..]))
  {
    var (it, k) := FirstItem(ns);
    FirstItemHeads(ns);
    HeadsAppend([it], Partition(ns[k..]));
  }

  /** The wrappers come in heading order, one per qualifying heading. */
  lemma {:induction false} PartitionHeads(ns: seq<Node>)
    ensures Heads(Partition(ns)) == Qualifying(ns)
    decreases |ns|
  {
    if |ns| > 0 {
      var k := FirstItem(ns).1;
      HeadsFirst(ns);
      PartitionHeads(ns[k..]);
      QualifyingAppend(ns[..k], ns[k..]);
      ConcatSplit(ns, k);
    }
  }

  // ---------------------------------------------------------------------
  // The grouping as written

  /** The H2/H3 children carrying an `id` attribute, blank or not, in
      document order: the list the heading query returns. */
  function IdHeadings(ns: seq<Node>): seq<Node> {
    if |ns| == 0 then [] else (if HasIdHeading(ns[0]) then [ns[0]] else []) + IdHeadings(ns[1..])
  }

  /** The nodes that are not qualifying headings, in document order. */
  function Kept(ns: seq<Node>): seq<Node> {
    if |ns| == 0 then [] else (if Qualifies(ns[0]) then [] else [ns[0]]) + Kept(ns[1..])
  }

  /** Nodes as loose children of the body. */
  function AllLoose(ns: seq<Node>): (items: seq<Item>)
    ensures |items| == |ns|
    ensures forall i :: 0 <= i < |ns| ==> items[i] == Loose(ns[i])
  {
    seq(|ns|, i requires 0 <= i < |ns| => Loose(ns[i]))
  }

  /** One wrapper per heading, each holding only its heading. */
  function Singles(hs: seq<Node>): (items: seq<Item>)
    ensures |items| == |hs|
    ensures forall i :: 0 <= i < |hs| ==> items[i] == Wrapper([hs[i]])
  {
    seq(|hs|, i requires 0 <= i < |hs| => Wrapper([hs[i]]))
  }

  /** The body without the first occurrence of `it`. */
  function RemoveFirst(items: seq<Item>, it: Item): (r: seq<Item>)
    ensures |r| == if it in items then |items| - 1 else |items|
    ensures it !in items ==> r == items
  {
    if |items| == 0 then []
    else if items[0] == it then items[1..]
    else
      assert it in items <==> it in items[1..];
      [items[0]] + RemoveFirst(items[1..], it)
  }

  /** Removing takes away exactly one occurrence, if there is one. */
  lemma {:induction false} RemoveFirstCount(items: seq<Item>, it: Item)
    ensures multiset(RemoveFirst(items, it)) == multiset(items) - multiset{it}
    decreases |items|
  {
    if |items| > 0 {
      assert items == [items[0]] + items[1..];
      if items[0] != it {
        RemoveFirstCount(items[1..], it);
      }
    }
  }

  /** One pass of the heading loop as written.  A blank id is skipped.
      Otherwise `wrapper.appendChild(h)` takes the heading out of the body
      into the new, empty wrapper, so `h.nextSibling` is null afterwards: the
      sibling loop takes nothing and `insertBefore(wrapper, null)` appends the
      wrapper, holding only the heading, at the end of the body. */
  function WrapAsWritten(body: seq<Item>, h: Node): (r: seq<Item>)
    ensures !Qualifies(h) ==> r == body
    ensures Qualifies(h) ==> |r| == |body| + (if Loose(h) in body then 0 else 1) && r[|r| - 1] == Wrapper([h])
  {
    if !Qualifies(h) then body else RemoveFirst(body, Loose(h)) + [Wrapper([h])]
  }

  /** The heading loop as written, over the headings still to visit. */
  function GroupAsWritten(body: seq<Item>, hs: seq<Node>): seq<Item>
    decreases |hs|
  {
    if |hs| == 0 then body else GroupAsWritten(WrapAsWritten(body, hs[0]), hs[1..])
  }

  /** The grouping `setupInstructionsTOC` performs as written: the heading
      loop run over the body's children. */
  function PartitionAsWritten(ns: seq<Node>): seq<Item> {
    GroupAsWritten(AllLoose(ns), IdHeadings(ns))
  }

  lemma AllLooseAppend(a: seq<Node>, b: seq<Node>)
    ensures AllLoose(a + b) == AllLoose(a) + AllLoose(b)
  {
  }

  lemma SinglesAppend(a: seq<Node>, b: seq<Node>)
    ensures Singles(a + b) == Singles(a) + Singles(b)
  {
  }

  /** Removing an item that only occurs after a prefix leaves the prefix. */
  lemma {:induction false} RemoveFirstAfter(pre: seq<Item>, it: Item, post: seq<Item>)
    requires it !in pre
    ensures RemoveFirst(pre + [it] + post, it) == pre + post
  {
    var whole := pre + [it] + post;
    if |pre| > 0 {
      assert whole[0] == pre[0] != it;
      assert whole[1..] == pre[1..] + [it] + post;
      RemoveFirstAfter(pre[1..], it, post);
      assert pre + post == [pre[0]] + (pre[1..] + post);
    } else {
      assert whole[0] == it && whole[1..] == post;
    }
  }

  /** A qualifying heading's node is not among loose non-qualifying nodes. */
  lemma NotLooseAmongKept(k: seq<Node>, h: Node)
    requires forall i :: 0 <= i < |k| ==> !Qualifies(k[i])
    requires Qualifies(h)
    ensures Loose(h) !in AllLoose(k)
  {
  }

  lemma KeptNotQualifying(ns: seq<Node>)
    ensures forall i :: 0 <= i < |Kept(ns)| ==> !Qualifies(Kept(ns)[i])
  {
    if |ns| > 0 {
      KeptNotQualifying(ns[1..]);
      assert Kept(ns) == (if Qualifies(ns[0]) then [] else [ns[0]]) + Kept(ns[1..]);
    }
  }

  /** The visit of a qualifying heading: it leaves the loose part and its
      wrapper joins the end. */
  lemma WrapStep(k: seq<Node>, rest: seq<Node>, q: seq<Node>)
    requires forall i :: 0 <= i < |k| ==> !Qualifies(k[i])
    requires |rest| > 0 && Qualifies(rest[0])
    ensures WrapAsWritten(AllLoose(k) + AllLoose(rest) + Singles(q), rest[0])
            == AllLoose(k) + AllLoose(rest[1..]) + Singles(q + [rest[0]])
  {
    var x := rest[0];
    var lk, lt, sq := AllLoose(k), AllLoose(rest[1..]), Singles(q);
    assert AllLoose(rest) == [Loose(x)] + lt;
    Assoc(lk, [Loose(x)], lt);
    Assoc(lk + [Loose(x)], lt, sq);
    var body := lk + [Loose(x)] + (lt + sq);
    assert AllLoose(k) + AllLoose(rest) + Singles(q) == body;
    NotLooseAmongKept(k, x);
    RemoveFirstAfter(lk, Loose(x), lt + sq);
    assert WrapAsWritten(body, x) == lk + (lt + sq) + [Wrapper([x])];
    SinglesAppend(q, [x]);
    assert Singles([x]) == [Wrapper([x])];
    Assoc(lk, lt, sq);
    Assoc(lk + lt, sq, [Wrapper([x])]);
  }

  /** The visit of anything else: the loose part just grows by the node. */
  lemma KeepStep(k: seq<Node>, rest: seq<Node>, q: seq<Node>)
    requires |rest| > 0
    ensures AllLoose(k) + AllLoose(rest) + Singles(q) == AllLoose(k + [rest[0]]) + AllLoose(rest[1..]) + Singles(q)
  {
    var tail := AllLoose(rest[1..]);
    assert AllLoose(rest) == [Loose(rest[0])] + tail;
    assert AllLoose([rest[0]]) == [Loose(rest[0])];
    AllLooseAppend(k, [rest[0]]);
    Assoc(AllLoose(k), [Loose(rest[0])], tail);
  }

  /** A child that is not a qualifying heading leaves the body as it is. */
  lemma GroupSkip(body: seq<Item>, rest: seq<Node>)
    requires |rest| > 0 && !Qualifies(rest[0])
    ensures GroupAsWritten(body, IdHeadings(rest)) == GroupAsWritten(body, IdHeadings(rest[1..]))
  {
    var hs := IdHeadings(rest[1..]);
    if HasIdHeading(rest[0]) {
      assert IdHeadings(rest) == [rest[0]] + hs;
      assert ([rest[0]] + hs)[1..] == hs;
    } else {
      assert IdHeadings(rest) == [] + hs == hs;
    }
  }

  /** A qualifying heading is wrapped, then the loop goes on. */
  lemma GroupWrap(body: seq<Item>, rest: seq<Node>)
    requires |rest| > 0 && Qualifies(rest[0])
    ensures GroupAsWritten(body, IdHeadings(rest)) == GroupAsWritten(WrapAsWritten(body, rest[0]), IdHeadings(rest[1..]))
  {
    var hs := IdHeadings(rest[1..]);
    assert IdHeadings(rest) == [rest[0]] + hs;
    assert ([rest[0]] + hs)[1..] == hs;
  }

  lemma Assoc<T>(a: seq<T>, b: seq<T>, c: seq<T>)
    ensures a + b + c == a + (b + c)
  {
  }

  lemma WrappedHeadingLeavesKept(k: seq<Node>, rest: seq<Node>, q: seq<Node>)
    requires |rest| > 0 && Qualifies(rest[0])
    ensures k + Kept(rest[1..]) == k + Kept(rest)
    ensures q + [rest[0]] + Qualifying(rest[1..]) == q + Qualifying(rest)
  {
    var kt, qt := Kept(rest[1..]), Qualifying(rest[1..]);
    assert Kept(rest) == [] + kt == kt;
    assert Qualifying(rest) == [rest[0]] + qt;
    Assoc(q, [rest[0]], qt);
  }

  lemma KeptNodeJoinsKept(k: seq<Node>, rest: seq<Node>, q: seq<Node>)
    requires |rest| > 0 && !Qualifies(rest[0])
    ensures k + [rest[0]] + Kept(rest[1..]) == k + Kept(rest)
    ensures q + Qualifying(rest[1..]) == q + Qualifying(rest)
  {
    var kt, qt := Kept(rest[1..]), Qualifying(rest[1..]);
    assert Kept(rest) == [rest[0]] + kt;
    assert Qualifying(rest) == [] + qt == qt;
    Assoc(k, [rest[0]], kt);
  }

  /** The loop invariant of the heading loop as written: with the nodes
      `k` already passed over left loose and the wrappers of `q` appended,
      visiting the headings of `rest` leaves every non-qualifying node loose
      in order, followed by one single-heading wrapper per qualifying
      heading. */
  lemma {:induction false} GroupAsWrittenInvariant(k: seq<Node>, rest: seq<Node>, q: seq<Node>)
    requires forall i :: 0 <= i < |k| ==> !Qualifies(k[i])
    ensures GroupAsWritten(AllLoose(k) + AllLoose(rest) + Singles(q), IdHeadings(rest))
            == AllLoose(k + Kept(rest)) + Singles(q + Qualifying(rest))
    decreases |rest|
  {
    if |rest| == 0 {
      assert k + Kept(rest) == k && q + Qualifying(rest) == q;
      assert AllLoose(rest) == [];
    } else {
      var x := rest[0];
      var tail := rest[1..];
      var body := AllLoose(k) + AllLoose(rest) + Singles(q);
      if Qualifies(x) {
        GroupWrap(body, rest);
        WrapStep(k, rest, q);
        GroupAsWrittenInvariant(k, tail, q + [x]);
        WrappedHeadingLeavesKept(k, rest, q);
      } else {
        GroupSkip(body, rest);
        KeepStep(k, rest, q);
        assert forall i :: 0 <= i < |k + [x]| ==> !Qualifies((k + [x])[i]);
        GroupAsWrittenInvariant(k + [x], tail, q);
        KeptNodeJoinsKept(k, rest, q);
      }
    }
  }

  /** As written, the grouping leaves every node that is not a qualifying
      heading loose and in order, and after them puts one wrapper per
      qualifying heading, in document order, holding nothing but the
      heading. */
  lemma AsWrittenRegroups(ns: seq<Node>)
    ensures PartitionAsWritten(ns) == AllLoose(Kept(ns)) + Singles(Qualifying(ns))
  {
    GroupAsWrittenInvariant([], ns, []);
    assert AllLoose([]) + AllLoose(ns) + Singles([]) == AllLoose(ns);
    assert [] + Kept(ns) == Kept(ns) && [] + Qualifying(ns) == Qualifying(ns);
  }

  lemma {:induction false} HeadsOfLoose(ns: seq<Node>)
    ensures Heads(AllLoose(ns)) == []
    decreases |ns|
  {
    if |ns| > 0 {
      assert AllLoose(ns)[1..] == AllLoose(ns[1..]);
      HeadsOfLoose(ns[1..]);
    }
  }

  lemma {:induction false} HeadsOfSingles(hs: seq<Node>)
    ensures Heads(Singles(hs)) == hs
    decreases |hs|
  {
    if |hs| > 0 {
      assert Singles(hs)[1..] == Singles(hs[1..]);
      HeadsOfSingles(hs[1..]);
    }
  }

  /** Even as written, the wrappers' headings are exactly the qualifying
      headings in document order, so the chips are the same as with the
      intended grouping. */
  lemma AsWrittenHeads(ns: seq<Node>)
    ensures Heads(PartitionAsWritten(ns)) == Qualifying(ns)
  {
    AsWrittenRegroups(ns);
    HeadsAppend(AllLoose(Kept(ns)), Singles(Qualifying(ns)));
    HeadsOfLoose(Kept(ns));
    HeadsOfSingles(Qualifying(ns));
  }

  lemma QualifyingQualifies(ns: seq<Node>)
    ensures forall i :: 0 <= i < |Qualifying(ns)| ==> Qualifies(Qualifying(ns)[i])
  {
    if |ns| > 0 {
      QualifyingQualifies(ns[1..]);
      assert Qualifying(ns) == (if Qualifies(ns[0]) then [ns[0]] else []) + Qualifying(ns[1..]);
    }
  }

  /** As written, every item still has the promised shape: loose nodes are
      not qualifying headings, and each wrapper holds just its heading. */
  lemma AsWrittenWellFormed(ns: seq<Node>)
    ensures forall i :: 0 <= i < |PartitionAsWritten(ns)| ==> WellFormed(PartitionAsWritten(ns)[i])
  {
    AsWrittenRegroups(ns);
    KeptNotQualifying(ns);
    QualifyingQualifies(ns);
    var a := AllLoose(Kept(ns));
    var b := Singles(Qualifying(ns));
    forall i | 0 <= i < |a + b|
      ensures WellFormed((a + b)[i])
    {
      if i < |a| {
        assert (a + b)[i] == Loose(Kept(ns)[i]);
      } else {
        assert (a + b)[i] == Wrapper([Qualifying(ns)[i - |a|]]);
      }
    }
  }

  lemma {:induction false} KeptAndQualifying(ns: seq<Node>)
    ensures multiset(Kept(ns)) + multiset(Qualifying(ns)) == multiset(ns)
    decreases |ns|
  {
    if |ns| > 0 {
      KeptAndQualifying(ns[1..]);
      assert ns == [ns[0]] + ns[1..];
    }
  }

  lemma {:induction false} FlattenAppend(a: seq<Item>, b: seq<Item>)
    ensures Flatten(a + b) == Flatten(a) + Flatten(b)
    decreases |a|
  {
    if |a| > 0 {
      assert (a + b)[0] == a[0];
      assert (a + b)[1..] == a[1..] + b;
      FlattenAppend(a[1..], b);
    } else {
      assert a + b == b;
    }
  }

  lemma {:induction false} FlattenLoose(ns: seq<Node>)
    ensures Flatten(AllLoose(ns)) == ns
    decreases |ns|
  {
    if |ns| > 0 {
      assert AllLoose(ns)[1..] == AllLoose(ns[1..]);
      FlattenLoose(ns[1..]);
      assert ns == [ns[0]] + ns[1..];
    }
  }

  lemma {:induction false} FlattenSingles(hs: seq<Node>)
    ensures Flatten(Singles(hs)) == hs
    decreases |hs|
  {
    if |hs| > 0 {
      assert Singles(hs)[1..] == Singles(hs[1..]);
      FlattenSingles(hs[1..]);
      assert hs == [hs[0]] + hs[1..];
    }
  }

  /** As written, no node is lost or duplicated: read through the wrappers,
      the body holds the non-qualifying nodes in order and then the
      qualifying headings, a rearrangement of the original children. */
  lemma AsWrittenKeepsNodes(ns: seq<Node>)
    ensures Flatten(PartitionAsWritten(ns)) == Kept(ns) + Qualifying(ns)
    ensures multiset(Flatten(PartitionAsWritten(ns))) == multiset(ns)
  {
    AsWrittenRegroups(ns);
    FlattenAppend(AllLoose(Kept(ns)), Singles(Qualifying(ns)));
    FlattenLoose(Kept(ns));
    FlattenSingles(Qualifying(ns));
    KeptAndQualifying(ns);
  }

  /** The discrepancy: for a heading followed by a paragraph, the code as
      written leaves the paragraph loose and appends the heading's wrapper
      after it, while the intended grouping wraps both, in place. */
  lemma ContentLeftBehind()
    ensures var h := Element("H2", Some("a"), "A");
            var p := TextNode("p");
            && PartitionAsWritten([h, p]) == [Loose(p), Wrapper([h])]
            && Partition([h, p]) == [Wrapper([h, p])]
            && Flatten(PartitionAsWritten([h, p])) != [h, p]
  {
    var h := Element("H2", Some("a"), "A");
    var p := TextNode("p");
    SampleSplits(h, p);
    AsWrittenRegroups([h, p]);
    assert AllLoose([p]) == [Loose(p)] && Singles([h]) == [Wrapper([h])];
    var w := [Loose(p), Wrapper([h])];
    FlattenCons(w[0], w[1..]);
    assert Flatten(w)[0] == p != h;
    SampleIntended(h, p);
  }

  /** The sample heading qualifies and the sample paragraph does not. */
  lemma SampleSplits(h: Node, p: Node)
    requires h == Element("H2", Some("a"), "A") && p == TextNode("p")
    ensures Kept([h, p]) == [p] && Qualifying([h, p]) == [h]
  {
    assert !IsSpace("a"[0]);
    assert Qualifies(h);
    assert [h, p][1..] == [p] && [p][1..] == [];
    assert Kept([p]) == [p] + Kept([]);
    assert Kept([h, p]) == [] + Kept([p]);
    assert Qualifying([p]) == [] + Qualifying([]);
    assert Qualifying([h, p]) == [h] + Qualifying([p]);
  }

  /** The intended grouping wraps the sample heading with its paragraph. */
  lemma SampleIntended(h: Node, p: Node)
    requires h == Element("H2", Some("a"), "A") && p == TextNode("p")
    ensures Partition([h, p]) == [Wrapper([h, p])]
  {
    assert !IsSpace("a"[0]);
    assert Qualifies(h);
    assert Span([h, p]) == 2;
    assert [h, p][..2] == [h, p] && [h, p][2..] == [];
  }

  /** The wrapper ids of some headings, in order. */
  function Ids(hs: seq<Node>): (ids: seq<string>)
    ensures |ids| == |hs|
    ensures forall i :: 0 <= i < |hs| ==> ids[i] == WrapperId(hs[i])
  {
    seq(|hs|, i requires 0 <= i < |hs| => WrapperId(hs[i]))
  }

  // ---------------------------------------------------------------------
  // Chips

  /** The gap between chips, in pixels. */
  const Gap: nat := 8

  /** `sizeChips`: each chip gets a fifth of the strip after the four gaps,
      but never less than 120 pixels. */
  function ChipWidth(w: nat): (cw: int)
    ensures cw >= 120
    ensures w >= 632 ==> 5 * cw + 4 * Gap <= w < 5 * (cw + 1) + 4 * Gap
    ensures w < 632 ==> cw == 120
  {
    var share := (w - Gap * 4) / 5;
    if share > 120 then share else 120
  }

  /** A chip: its label and the wrapper it targets. */
  datatype Chip = Chip(text: string, target: string)

  /** A chip's label: the section's title, or "Section n" for an untitled
      n-th section. */
  function ChipText(title: string, n: nat): (t: string)
    ensures t != ""
    ensures title != "" ==> t == title
  {
    if title != "" then title else "Section " + NatToString(n)
  }

  /** An untitled section's label is "Section " followed by a number that
      reads back as the section's position. */
  lemma ChipTextNumbered(n: nat)
    ensures var t := ChipText("", n);
            |t| > 8 && t[..8] == "Section " && ParseInt(t[8..]) == Some(n)
  {
    var t := ChipText("", n);
    assert t[8..] == NatToString(n);
    ParseNatToString(n);
  }

  /** The chip for heading `h`, the `n`-th wrapper: labelled with its title,
      or with "Section n" when the title is empty, and targeting its wrapper. */
  function ChipFor(h: Node, n: nat): Chip {
    Chip(ChipText(Title(h), n), WrapperId(h))
  }

  /** `f` applied to each element of `xs` and its one-based position,
      counted on from `n`. */
  function Numbered<A, B>(f: (A, nat) -> B, xs: seq<A>, n: nat): (ys: seq<B>)
    ensures |ys| == |xs|
    ensures forall i :: 0 <= i < |xs| ==> ys[i] == f(xs[i], n + i + 1)
    decreases |xs|
  {
    if |xs| == 0 then []
    else
      var rest := Numbered(f, xs[1..], n + 1);
      var ys := [f(xs[0], n + 1)] + rest;
      assert forall i :: 1 <= i < |xs| ==> ys[i] == rest[i - 1] && xs[i] == xs[1..][i - 1];
      ys
  }

  /** The chips, one per wrapper heading in order, numbered from `n + 1`. */
  function Chips(hs: seq<Node>, n: nat): (cs: seq<Chip>)
    ensures |cs| == |hs|
    ensures forall i :: 0 <= i < |hs| ==> cs[i] == ChipFor(hs[i], n + i + 1)
  {
    Numbered(ChipFor, hs, n)
  }

  /** Each chip targets its heading's wrapper and is labelled with the
      heading's title, or, when the title is empty, with "Section " and a
      number that reads back as the chip's position. */
  lemma ChipLabels(hs: seq<Node>, n: nat, i: nat)
    requires i < |hs|
    ensures var c := Chips(hs, n)[i];
            && c.target == WrapperId(hs[i]) == Ids(hs)[i]
            && (Title(hs[i]) != "" ==> c.text == Title(hs[i]))
            && (Title(hs[i]) == "" ==> |c.text| > 8 && c.text[..8] == "Section " && ParseInt(c.text[8..]) == Some(n + i + 1))
  {
    ChipTextNumbered(n + i + 1);
  }

  // ---------------------------------------------------------------------
  // Filtering

  /** What `showSection` leaves on the page: which wrappers are hidden and
      which chips are marked active (both in wrapper order). */
  datatype Filter = Filter(hidden: seq<bool>, active: seq<bool>)

  /** `showSection(target)`, for wrappers with the given ids and the chips
      built from them. */
  function ShowSection(ids: seq<string>, target: string): (f: Filter)
    ensures |f.hidden| == |ids| && |f.active| == |ids|
    ensures forall i :: 0 <= i < |ids| ==> (!f.hidden[i] <==> ids[i] == target)
    ensures forall i :: 0 <= i < |ids| ==> (f.active[i] <==> ids[i] == target)
  {
    Filter(seq(|ids|, i requires 0 <= i < |ids| => ids[i] != target),
           seq(|ids|, i requires 0 <= i < |ids| => ids[i] == target))
  }

  /** With distinct wrapper ids, choosing a chip's target shows exactly one
      wrapper: the chip's own. */
  lemma ExactlyOneVisible(ids: seq<string>, j: nat)
    requires j < |ids|
    requires forall a, b :: 0 <= a < b < |ids| ==> ids[a] != ids[b]
    ensures var f := ShowSection(ids, ids[j]);
            !f.hidden[j] && f.active[j]
            && forall i :: 0 <= i < |ids| && i != j ==> f.hidden[i] && !f.active[i]
  {
  }

  /** The first index whose flag is set. */
  function FirstSet(flags: seq<bool>): (r: Option<nat>)
    ensures r.Some? ==> r.value < |flags| && flags[r.value]
                        && forall i :: 0 <= i < r.value ==> !flags[i]
    ensures r.None? ==> forall i :: 0 <= i < |flags| ==> !flags[i]
  {
    if |flags| == 0 then None
    else if flags[0] then Some(0)
    else match FirstSet(flags[1..])
      case None => None
      case Some(i) => Some(i + 1)
  }

  /** The `toggle` handler: re-apply the active chip's target, or the first
      chip's when none is active; with no chips nothing changes. */
  function OnToggle(ids: seq<string>, f: Filter): (r: Filter)
    requires |f.active| == |ids|
    ensures |ids| == 0 ==> r == f
  {
    match FirstSet(f.active)
    case Some(i) => ShowSection(ids, ids[i])
    case None => if |ids| > 0 then ShowSection(ids, ids[0]) else f
  }

  /** Opening or closing the instructions keeps the current filter. */
  lemma ToggleKeepsFilter(ids: seq<string>, target: string)
    requires target in ids
    ensures OnToggle(ids, ShowSection(ids, target)) == ShowSection(ids, target)
  {
    var f := ShowSection(ids, target);
    var i := FirstSet(f.active).value;
    assert ids[i] == target;
  }

  /** The initial filter shows the first wrapper.  With no wrapper at all the
      source fails here (it reads the id of a missing first section); that
      case is None. */
  function InitialFilter(ids: seq<string>): (r: Option<Filter>)
    ensures r.None? <==> |ids| == 0
    ensures r.Some? ==> r.value == ShowSection(ids, ids[0]) && !r.value.hidden[0] && r.value.active[0]
  {
    if |ids| == 0 then None else Some(ShowSection(ids, ids[0]))
  }

  // ---------------------------------------------------------------------
  // Setting the table of contents up

  /** An H2/H3 that carries an `id` attribute, blank or not: what the
      heading query collects. */
  predicate HasIdHeading(n: Node) {
    IsBreak(n) && n.id.Some?
  }

  /** How `setupInstructionsTOC` ends: with no H2/H3 carrying an id it
      returns before touching anything; otherwise it groups the body, builds
      the chips and applies the initial filter, or fails when that filter has
      no first section to show. */
  datatype Setup = NoToc | Fails(items: seq<Item>) | Built(items: seq<Item>, chips: seq<Chip>, filter: Filter)

  /** The TOC set-up as written: the body is grouped by the heading loop as
      written, and when headings carry ids but every one of them is blank,
      the grouping makes no wrapper and the initial
      `showSection(sections[0].id)` reads a missing element. */
  function SetupToc(ns: seq<Node>): (r: Setup)
    ensures r.NoToc? <==> forall i :: 0 <= i < |ns| ==> !HasIdHeading(ns[i])
    ensures r.Fails? ==> Qualifying(ns) == [] && r.items == PartitionAsWritten(ns)
    ensures r.Built? ==> |Qualifying(ns)| > 0 && r.items == PartitionAsWritten(ns)
                         && r.chips == Chips(Qualifying(ns), 0)
                         && r.filter == ShowSection(Ids(Qualifying(ns)), WrapperId(Qualifying(ns)[0]))
  {
    if forall i :: 0 <= i < |ns| ==> !HasIdHeading(ns[i]) then NoToc
    else
      var items := PartitionAsWritten(ns);
      AsWrittenHeads(ns);
      var hs := Heads(items);
      match InitialFilter(Ids(hs))
      case None => Fails(items)
      case Some(f) => Built(items, Chips(hs, 0), f)
  }

  /** A body whose only heading has a blank id makes the set-up fail. */
  lemma BlankIdFails()
    ensures SetupToc([Element("H2", Some(" "), "Intro")]).Fails?
  {
    var h := Element("H2", Some(" "), "Intro");
    assert HasIdHeading([h][0]);
    assert Qualifying([h]) == [] + Qualifying([]);
  }

  /** The corrected set-up: each wrapper takes its heading's content in
      place, and, with the missing guard, a body without any wrapper is left
      as it is, exactly as when it has no heading with an id. */
  function SetupTocGuarded(ns: seq<Node>): (r: Setup)
    ensures !r.Fails?
    ensures r.NoToc? <==> Qualifying(ns) == []
    ensures r.Built? ==> r.items == Partition(ns)
                         && r.chips == Chips(Qualifying(ns), 0)
                         && r.filter == ShowSection(Ids(Qualifying(ns)), WrapperId(Qualifying(ns)[0]))
    ensures r.Built? ==> !r.filter.hidden[0] && r.filter.active[0]
  {
    var items := Partition(ns);
    PartitionHeads(ns);
    var hs := Heads(items);
    match InitialFilter(Ids(hs))
    case None => NoToc
    case Some(f) =>
      assert !(forall i :: 0 <= i < |ns| ==> !HasIdHeading(ns[i])) by {
        QualifyingHeadingHasId(ns);
      }
      Built(items, Chips(hs, 0), f)
  }

  /** A qualifying heading carries an id. */
  lemma {:induction false} QualifyingHeadingHasId(ns: seq<Node>)
    requires Qualifying(ns) != []
    ensures exists i :: 0 <= i < |ns| && HasIdHeading(ns[i])
  {
    if !Qualifies(ns[0]) {
      QualifyingHeadingHasId(ns[1..]);
      var i :| 0 <= i < |ns[1..]| && HasIdHeading(ns[1..][i]);
      assert HasIdHeading(ns[i + 1]);
    } else {
      assert HasIdHeading(ns[0]);
    }
  }

  /** The corrected set-up never fails.  Wherever the original does
      nothing, so does it; wherever the original builds a TOC, it builds the
      same chips and the same initial filter, and differs only in what the
      wrappers hold. */
  lemma GuardedAgrees(ns: seq<Node>)
    ensures SetupToc(ns).NoToc? ==> SetupTocGuarded(ns) == NoToc
    ensures SetupToc(ns).Built? ==>
              var g := SetupTocGuarded(ns);
              && g.Built? && g.chips == SetupToc(ns).chips && g.filter == SetupToc(ns).filter
              && g.items == Partition(ns) && SetupToc(ns).items == PartitionAsWritten(ns)
    ensures SetupToc(ns).Fails? ==> SetupTocGuarded(ns) == NoToc
  {
    if SetupToc(ns).NoToc? && Qualifying(ns) != [] {
      QualifyingHeadingHasId(ns);
    }
  }
}

=== FILE: voice.dfy ===
/** Voice selection for the dialog's speech: a pure choice among the names of
    the voices the speech engine offers. */
module Voice {
  import opened Wrappers
  import opened Text

  /** The speaker glyphs of the dialog scripts. */
  const Fairy: string := "\U{1F9DA}\U{200D}\U{2640}\U{FE0F}"
  const Wizard: string := "\U{1F9D9}\U{200D}\U{2642}\U{FE0F}"
  const Dragon: string := "\U{1F409}"

  /** The alternatives of the two name patterns, matched anywhere in a voice
      name, ignoring case. */
  const FemaleNames: seq<string> := ["female", "susan", "sara", "victoria", "samantha", "zoe", "amy", "emma"]
  const MaleNames: seq<string> := ["male", "daniel", "brian", "alex", "matthew", "mike", "john", "fred"]

  /** Some alternative of `pats` occurs in the lower-cased `name`. */
  predicate MatchesAny(name: string, pats: seq<string>) {
    exists k :: 0 <= k < |pats| && Contains(Lower(name), pats[k])
  }

  predicate IsFemaleName(name: string) { MatchesAny(name, FemaleNames) }
  predicate IsMaleName(name: string) { MatchesAny(name, MaleNames) }

  /** The index of the first name satisfying `p`, as `Array.prototype.find`
      scans. */
  function FindFirst(names: seq<string>, p: string -> bool): (r: Option<nat>)
    ensures r.Some? ==> r.value < |names| && p(names[r.value])
                        && forall j :: 0 <= j < r.value ==> !p(names[j])
    ensures r.None? ==> forall j :: 0 <= j < |names| ==> !p(names[j])
  {
    if |names| == 0 then None
    else if p(names[0]) then Some(0)
    else
      match FindFirst(names[1..], p)
      case None => None
      case Some(i) => Some(i + 1)
  }

  /** Two names are the same voice name, ignoring case. */
  predicate SameName(a: string, b: string) { Lower(a) == Lower(b) }

  /** The first voice called `pref`, ignoring case (`byName`). */
  function ByName(voices: seq<string>, pref: string): (r: Option<nat>)
    ensures r.Some? ==> r.value < |voices| && SameName(voices[r.value], pref)
                        && forall j :: 0 <= j < r.value ==> !SameName(voices[j], pref)
    ensures r.None? ==> forall j :: 0 <= j < |voices| ==> !SameName(voices[j], pref)
  {
    FindFirst(voices, v => SameName(v, pref))
  }

  /** Preference `k` is the first, in preference order, that names a voice. */
  ghost predicate PrefWins(voices: seq<string>, prefs: seq<string>, k: int) {
    && 0 <= k < |prefs|
    && ByName(voices, prefs[k]).Some?
    && forall m :: 0 <= m < k ==> ByName(voices, prefs[m]).None?
  }

  /** The voice named by the winning preference, if any preference names one. */
  function ByPreference(voices: seq<string>, prefs: seq<string>): (r: Option<nat>)
    ensures r.Some? ==> exists k :: PrefWins(voices, prefs, k) && r == ByName(voices, prefs[k])
    ensures r.None? <==> forall k :: 0 <= k < |prefs| ==> ByName(voices, prefs[k]).None?
  {
    if |prefs| == 0 then None
    else
      match ByName(voices, prefs[0])
      case Some(i) =>
        assert PrefWins(voices, prefs, 0);
        Some(i)
      case None =>
        var r := ByPreference(voices, prefs[1..]);
        assert forall k :: 1 <= k < |prefs| ==> prefs[k] == prefs[1..][k - 1];
        assert r.Some? ==> exists k :: PrefWins(voices, prefs, k) && r == ByName(voices, prefs[k]) by {
          if r.Some? {
            var k :| PrefWins(voices, prefs[1..], k) && r == ByName(voices, prefs[1..][k]);
            assert PrefWins(voices, prefs, k + 1);
          }
        }
        r
  }

  /** `i` is what `find(p) || list[0]` picks: the first name satisfying `p`
      when one does, and the first name otherwise. */
  ghost predicate FirstOrFallback(names: seq<string>, p: string -> bool, i: nat) {
    && i < |names|
    && (forall j :: 0 <= j < i ==> !p(names[j]))
    && ((exists j :: 0 <= j < |names| && p(names[j])) ==> p(names[i]))
    && ((forall j :: 0 <= j < |names| ==> !p(names[j])) ==> i == 0)
  }

  /** `pickVoice`: the index of the chosen voice, or None when there is no
      speech engine or it offers no voices. */
  function PickVoice(engine: bool, voices: seq<string>, prefs: seq<string>, glyph: string): (r: Option<nat>)
    ensures r.None? <==> !engine || |voices| == 0
    ensures r.Some? ==> r.value < |voices|
    ensures r.Some? && ByPreference(voices, prefs).Some? ==> r == ByPreference(voices, prefs)
    ensures r.Some? && ByPreference(voices, prefs).None? && glyph == Fairy ==>
              FirstOrFallback(voices, IsFemaleName, r.value)
    ensures r.Some? && ByPreference(voices, prefs).None? && (glyph == Wizard || glyph == Dragon) ==>
              FirstOrFallback(voices, IsMaleName, r.value)
    ensures r.Some? && ByPreference(voices, prefs).None? && glyph != Fairy && glyph != Wizard && glyph != Dragon ==>
              r.value == 0
  {
    if !engine || |voices| == 0 then None
    else
      match ByPreference(voices, prefs)
      case Some(i) => Some(i)
      case None =>
        var female := FindFirst(voices, IsFemaleName);
        var male := FindFirst(voices, IsMaleName);
        if glyph == Fairy then Some(female.GetOr(0))
        else if glyph == Wizard || glyph == Dragon then Some(male.GetOr(0))
        else Some(0)
  }

  /** The male pattern's "male" also occurs inside "female": every name the
      female pattern catches by that word is a male-pattern name too. */
  lemma {:induction false} FemaleWordIsMale(name: string)
    requires Contains(Lower(name), "female")
    ensures IsMaleName(name)
  {
    var l := Lower(name);
    var i :| OccursAt(l, "female", i);
    assert l[i + 2..i + 6] == l[i..i + 6][2..6] == "male";
    assert OccursAt(l, "male", i + 2);
    assert Contains(l, MaleNames[0]);
  }

  /** A string without upper-case letters is its own lower-case form. */
  lemma LowerOfLowercase(s: string)
    requires forall i :: 0 <= i < |s| ==> !IsUpper(s[i])
    ensures Lower(s) == s
  {
  }

  lemma ZiraFemaleIsMaleName(v: string)
    requires v == "zira female"
    ensures Contains(Lower(v), "female") && IsMaleName(v)
  {
    LowerOfLowercase(v);
    assert v[5..11] == "female";
    assert OccursAt(Lower(v), "female", 5);
    FemaleWordIsMale(v);
  }

  /** So a wizard with no preferred voice on offer is given the first voice
      whenever that voice's name contains "female". */
  lemma WizardMayGetFemaleVoice(voices: seq<string>, prefs: seq<string>)
    requires |voices| > 0 && Contains(Lower(voices[0]), "female")
    requires ByPreference(voices, prefs).None?
    ensures PickVoice(true, voices, prefs, Wizard) == Some(0)
  {
    FemaleWordIsMale(voices[0]);
  }

  /** Neither "zira female" nor "daniel" is called "fred". */
  lemma FredNotOffered()
    ensures ByPreference(["zira female", "daniel"], ["fred"]).None?
  {
    var voices := ["zira female", "daniel"];
    assert !SameName(voices[0], "fred") by { assert Lower(voices[0])[0] == 'z'; assert Lower("fred")[0] == 'f'; }
    assert !SameName(voices[1], "fred") by { assert Lower(voices[1])[0] == 'd'; assert Lower("fred")[0] == 'f'; }
    assert ByName(voices, "fred").None?;
  }

  /** With the voices "zira female" and "daniel" and a preference for "fred",
      the wizard speaks with "zira female". */
  lemma WizardGetsZiraFemale()
    ensures PickVoice(true, ["zira female", "daniel"], ["fred"], Wizard) == Some(0)
  {
    var voices := ["zira female", "daniel"];
    ZiraFemaleIsMaleName(voices[0]);
    FredNotOffered();
    WizardMayGetFemaleVoice(voices, ["fred"]);
  }

  /** A preferred voice is found whatever the case of its name. */
  lemma PreferenceIgnoresCase()
    ensures PickVoice(true, ["alex", "DANIEL"], ["Daniel", "Alex"], Wizard) == Some(1)
  {
    var voices := ["alex", "DANIEL"];
    var l := Lower("DANIEL");
    assert l == "daniel" by {
      assert l[0] == 'd' && l[1] == 'a' && l[2] == 'n' && l[3] == 'i' && l[4] == 'e' && l[5] == 'l';
    }
    assert Lower("Daniel") == "daniel" by {
      var d := Lower("Daniel");
      assert d[0] == 'd' && d[1] == 'a' && d[2] == 'n' && d[3] == 'i' && d[4] == 'e' && d[5] == 'l';
    }
    assert !SameName(voices[0], "Daniel") by { assert |Lower(voices[0])| != |Lower("Daniel")|; }
    assert SameName(voices[1], "Daniel");
  }
}
